=== FILE: README.md ===
# Mailing campaigns: a Dafny model

This project models the logic of a Django web application for e-mail
campaigns. Users register recipients, compose messages and group them into
mailings. A mailing is sent recipient by recipient through the mail
transport, and every delivery attempt is written to a ledger. Which records
a user sees depends on who owns them and on the user's permissions.

The database is modelled as immutable sequences of records, one per table
(`Models.Store`). Request handlers, forms and the orchestrator are pure
functions over them. Four things the code gets from outside become inputs:

- the clock: a `Time` value `now`;
- the mail transport: a `Transport`, the outcome it gives for each letter;
- the random token source: a `token` string;
- the e-mail checks: an `EmailValidator` function for the external
  validator that `clean_email` calls, and one for the form field's own
  address check.

Modules, one per source component:

- `Common`: options, validation results, letters, and order-preserving filters and counts over tables.
- `Accounts`: the user record and Django's `has_perm` rule (users/models.py).
- `Models`: recipients, messages, mailings, attempts, status and frequency choices, defaults, column limits, integrity constraints (mailapp/models.py).
- `MailingService`: `start_mailing` as a left fold over the recipient list, and `stop_mailing` (mailapp/services.py).
- `MailForms`: the mailing form's owner-restricted choices, its validation and the columns it edits (mailapp/forms.py).
- `MailViews`: the cached, permission-scoped list views, the counts, owner stamping on creation and the detail-page POST dispatch (mailapp/views.py).
- `StartCommand`: the `start_mailing` management command.
- `Validation`: the e-mail and phone-number rules, which all the forms define identically.
- `VerificationMail`: the verification letter, its link and the verify route.
- `UserViews`: registration, e-mail verification, the user list and the choice of profile form (users/views.py).

The status follows whether `send_mail` returned, not the count it
returned: in mailapp/services.py:26-36 the mailing is set to Запущена as
soon as a call returns normally, whatever the count. So a run in which
every send returns 0 still leaves the mailing Запущена, while every one of
its ledger rows is Не успешно (`MailingService.StartMailing`).

## Model

| member | source | states |
|---|---|---|
| `Models.ParseStatus` | mailapp/models.py:66-78 | a stored status text names exactly one of Создана, Запущена, Завершена; any other text names none |
| `Models.StatusLabelRoundTrip` | mailapp/models.py:74-78 | parsing the label of a status gives that status back |
| `Models.LabelIsNeverKey` | mailapp/models.py:80-85 | every stored frequency key is one of the choices, and no display label is a stored key |
| `Models.FrequencyKeyIff` | mailapp/models.py:80-85 | a text is a stored frequency key iff it is the key of some frequency choice |
| `Models.FrequencyValuesFit` | mailapp/models.py:92 | every key and every label fits the 20-character frequency column |
| `Models.KeyFitsColumn` | mailapp/models.py:80-92 | any stored frequency key fits the 20-character frequency column |
| `Models.NewMailing` | mailapp/models.py:87-89 | a new mailing has status Создана and null start and end times, and keeps the given message, recipients, frequency and owner |
| `Models.MailingOwner` | mailapp/models.py:127 | the `mailing__owner` join gives the owner of the mailing with that key; none when no mailing has the key; with unique keys, exactly the owner of the row holding the key |
| `Models.SaveMailing` | mailapp/services.py:17 | `save()` updates the row with the object's key in place, or inserts the row when there is none; no other row is lost |
| `Models.SaveKeepsKeys` | mailapp/services.py:36 | re-saving an existing mailing keeps the length and the key of every row |
| `MailingService.RecordAttempt` | mailapp/services.py:38-60 | a positive count gives (Успешно, "Успешно"); a zero count gives (Не успешно, "Ошибка"); an SMTP error gives (Не успешно, its text); any other error gives (Не успешно, "Неожиданная ошибка: " + its text); the row references the mailing and has no owner |
| `MailingService.SendLoop` | mailapp/services.py:21-60 | one letter and one attempt per recipient, in list order; letter i goes only to recipient i; attempt i records the transport's outcome for letter i; the status becomes Запущена iff some send returned normally, and is otherwise unchanged |
| `MailingService.StartMailing` | mailapp/services.py:13-60 | the start time is set only if it was null; the end time is always `now`; a mailing without a message aborts after the times are set, with its status unchanged; otherwise one attempt per recipient is written, and the status is Запущена iff it already was or some send returned normally; nothing else changes |
| `MailingService.StopMailing` | mailapp/services.py:63-65 | the status becomes Завершена whatever it was; nothing else changes |
| `MailingService.StopIdempotent` | mailapp/services.py:63-65 | stopping twice equals stopping once |
| `MailingService.StopInStore` | mailapp/services.py:63-65 | stopping rewrites only the mailings table: the stopped mailing is saved under its key, every row under another key is kept, and an existing key keeps the table's length |
| `MailingService.RecipientEmails` | mailapp/services.py:21 | one address per stored recipient in the mailing's recipient set: every address belongs to such a recipient, and every such recipient contributes its address |
| `MailingService.MessageOf` | mailapp/services.py:19-20 | the message read is the row the mailing's message column refers to, and one is found exactly when the column is set and a row has that key |
| `MailingService.Ledger` | mailapp/services.py:38-60 | one ledger row per letter, in order, recording the transport's outcome for that letter, referencing the mailing and with no owner |
| `MailingService.RunInStore` | mailapp/services.py:13-60 | with a stored message: only the mailings and the ledger change; the mailing is saved with its new times and is Запущена iff it was or some send returned; one letter with the message's subject and body goes to each recipient address; the ledger is the old one followed by the rows for those letters |
| `MailingService.StartInStore` | mailapp/services.py:13-60 | only the mailings and the ledger change; the mailing is saved with its new times; the call raises, with the status and the ledger untouched and nothing sent, iff the mailing's message column names no stored message; otherwise it is the run of `RunInStore`, and the ledger gains one row per stored recipient of the mailing |
| `MailingService.StartKeepsStoreValid` | mailapp/models.py:127 | starting a stored mailing keeps every key unique, and every attempt references an existing mailing |
| `MailingService.LoopSuccesses` | mailapp/services.py:38-43 | the successful attempts number exactly the letters for which the transport reported a positive count |
| `MailingService.LoopTally` | mailapp/services.py:38-60 | every attempt is successful or unsuccessful, so the two tallies add up to the recipient count |
| `MailingService.RerunKeepsFirstStart` | mailapp/services.py:14-16 | a second run keeps the first run's start time and moves the end time to the second clock reading |
| `MailingService.TwoRecipientScenario` | mailapp/services.py:23-51 | with one accepted send and one SMTP refusal, the ledger rows are (Успешно, "Успешно") and (Не успешно, "connection refused"), and the mailing is Запущена |
| `MailingService.NoRecipientScenario` | mailapp/services.py:14-23 | with no recipients there are no attempts and no letters; the status is unchanged and the end time is still updated |
| `MailForms.RecipientChoices` | mailapp/forms.py:36-40 | with a user, the recipient choices are exactly that user's recipients; with none, they are all recipients |
| `MailForms.MessageChoices` | mailapp/forms.py:36-41 | with a user, the message choices are exactly that user's messages; with none, they are all messages |
| `MailForms.CleanRecipients` | mailapp/forms.py:43-47 | an empty selection raises "Вы должны указать получателей."; any other selection is returned unchanged |
| `MailForms.ValidateMailingForm` | mailapp/forms.py:32-47 | the form accepts its input, unchanged, iff the message (when given) and all recipients are among the offered choices, the selection is non-empty and the frequency is a stored key; an empty selection fails the field's required check first, so `clean_recipients`' own message is never reported |
| `MailForms.AcceptedSelectionIsOwned` | mailapp/forms.py:39-41 | a form bound to a user accepts only recipients and a message that user owns |
| `MailForms.ApplyMailingForm` | mailapp/forms.py:34 | the form edits only message, recipients and frequency; status, times, owner and key are untouched |
| `MailViews.ScopedRows` | mailapp/views.py:50-53 | an elevated user gets the whole table; anyone else gets exactly the rows they own, each as often as the table holds it and nothing added |
| `MailViews.CachedScopedList` | mailapp/views.py:43-53 | a non-empty cached value is returned as it is; a missing or empty cached value is a miss, which stores the whole table under the key and returns the scoped rows |
| `MailViews.ListsOnMiss` | mailapp/views.py:100-110 | on a miss, the recipient, message and mailing lists return the whole table for an elevated user and exactly the user's own rows otherwise, each as often as the table holds it and nothing added; the whole table is what gets cached |
| `MailViews.CacheHitIgnoresUser` | mailapp/views.py:44-46 | a cache hit serves the same rows to any two users |
| `MailViews.CachedListLeaks` | mailapp/views.py:44-49 | a user without the permission who lists recipients twice sees, the second time, a recipient owned by someone else |
| `MailViews.AttemptList` | mailapp/views.py:240-248 | a hit returns the cached attempts; a miss caches the whole ledger and returns exactly the attempts of the user's own mailings, each as often as the ledger holds it and nothing added, even for elevated users |
| `MailViews.AttemptTotals` | mailapp/views.py:250-263 | the totals count the in-scope attempts whose stored status text is Успешно and Не успешно, which are the attempts with each status; they add up to the in-scope attempt count: the whole ledger when elevated, the user's mailings' attempts otherwise |
| `MailViews.DashboardCounts` | mailapp/views.py:18-33 | the active count never exceeds the mailing count; an elevated user gets the size of the mailing and recipient tables and the number of Запущена mailings; anyone else gets the same three counts over the rows they own |
| `MailViews.Target` | mailapp/views.py:176 | the addressed mailing is the stored one with the key; there is none iff no mailing has that key |
| `MailViews.PostMailingDetail` | mailapp/views.py:175-183 | an unknown key gives 404 with no change; the view returns no response, and changes nothing, exactly for a Завершена mailing or a Запущена one the user may not stop; a redirect to the mailing list means the mailing was stopped |
| `MailViews.PostStartsCreated` | mailapp/views.py:177-179 | a POST on a Создана mailing runs the orchestrator on it: with a stored message, one new ledger row per stored recipient of the mailing and a redirect to the attempts; otherwise a server error |
| `MailViews.PostStopsStarted` | mailapp/views.py:180-183 | a POST on any other mailing leaves the ledger alone; on a Запущена mailing, a user with the disabling permission or the owner stops it |
| `MailViews.CreateRecipient` | mailapp/views.py:63-73 | nothing is saved exactly when the address is blank, longer than 100 characters, rejected by the field's check or by `clean_email`'s validator (mailapp/forms.py:17-28), already on file, or the full name is blank or longer than 100 characters; otherwise the recipient is appended with the requesting user as owner, fits its columns, and no other table changes |
| `MailViews.CreateRecipientKeepsValid` | mailapp/models.py:15 | creating a recipient keeps recipient keys and e-mail addresses unique |
| `MailViews.CreateMessage` | mailapp/views.py:113-123 | nothing is saved exactly when the subject is blank or longer than 200 characters or the body is blank (mailapp/models.py:39-40); otherwise the message is appended with the requesting user as owner, fits its columns, and no other table changes |
| `MailViews.CreateMessageKeepsValid` | mailapp/models.py:30 | creating a message under a fresh key keeps the message table's implicit primary key unique, and every other schema constraint |
| `MailViews.CreateMailing` | mailapp/views.py:151-166 | a mailing is saved iff the form, offered the user's own choices, accepts the input; it is appended owned by the user, Создана, with no times, the form's message and frequency, columns that fit, and no recipients, because the many-to-many selection is never saved |
| `MailViews.CreatedMailingSendsNothing` | mailapp/views.py:158-160 | a mailing created from any accepted form, which selected at least one recipient, has none: starting it writes no ledger row and leaves it Создана |
| `MailViews.CreateMailingWithRecipients` | mailapp/views.py:151-166 | the create view with the selection saved: the same as `MailViews.CreateMailing`, except that the new mailing holds exactly the selected recipients |
| `MailViews.AcceptedFormSelectsStoredRows` | mailapp/forms.py:36-47 | an accepted form selects at least one stored recipient and, when it names a message, a stored message |
| `MailViews.CreatedMailingWithRecipientsSends` | mailapp/views.py:158-160 | with the selection saved, starting a new mailing that has a message does not raise, and writes one ledger row per selected recipient, at least one |
| `Common.FilterKeepsCount` | mailapp/views.py:53 | a row the ORM filter selects appears in the result exactly as often as in the table |
| `Common.FilterSubMultiset` | mailapp/views.py:53 | an ORM filter never lists a row more often than the table holds it |
| `Common.FilterMultiset` | mailapp/views.py:53 | an ORM filter adds no row, and keeps every selected row with its multiplicity |
| `Common.Decimal` | mailapp/management/commands/start_mailing.py:30 | the key is printed as base-10 digits that denote it, with no leading zero |
| `StartCommand.FrequencyChoice` | mailapp/management/commands/start_mailing.py:15-16 | the `--frequency` choices are the four display labels |
| `StartCommand.ParseOptions` | mailapp/management/commands/start_mailing.py:10-16 | a missing option takes its default (Создана, "раз в день"); a given option must be one of its choices; anything else is refused |
| `StartCommand.Overwrite` | mailapp/management/commands/start_mailing.py:23-26 | the mailing gets the option's status and the frequency's display label, which is not one of the column's stored keys; nothing else changes |
| `StartCommand.Handle` | mailapp/management/commands/start_mailing.py:18-30 | an unknown (or negative) key raises before anything is written; a printed line is always the fixed confirmation for the key |
| `StartCommand.HandleStartsOverwritten` | mailapp/management/commands/start_mailing.py:23-28 | for a known key, the command's effect is exactly the start of the overwritten and saved mailing, whatever status was forced; it raises only when that start raises |
| `StartCommand.ForcedStatusStillStarts` | mailapp/management/commands/start_mailing.py:24-28 | whatever status is forced, even Завершена, the mailing ends Запущена iff that was forced or some send returned normally |
| `StartCommand.OutputIgnoresDelivery` | mailapp/management/commands/start_mailing.py:28-30 | whether the command prints, and what it prints, does not depend on the delivery outcomes |
| `Validation.CleanEmail` | users/forms.py:42-52 | the address is returned unchanged iff the validator accepts it; otherwise the error carries the validator's message (the same rule as mailapp/forms.py:22-28 and users/forms.py:75-85) |
| `Validation.IsDigitString` | users/forms.py:59 | `isdigit` holds iff the string is non-empty and made only of the ASCII digits '0' to '9' |
| `Validation.CleanPhoneNumber` | users/forms.py:54-61 | a missing or empty number, or one made only of digits, is returned unchanged; a number with any non-digit raises the fixed "only digits" error (the same rule as users/forms.py:87-94) |
| `VerificationMail.VerifyPath` | users/urls.py:47 | the path is the verify prefix, then the token, then a slash |
| `VerificationMail.VerificationUrl` | users/services.py:15 | the link is "http://", then the host, then the verify path of the token |
| `VerificationMail.SendVerificationEmail` | users/services.py:11-18 | the token stored on the user is the one in the link; the subject is fixed; the body is the fixed text followed by the link; the letter goes only to the user's own address |
| `VerificationMail.ParseVerifyPath` | users/urls.py:47 | a path the route accepts is the verify path of a non-empty, slash-free token |
| `VerificationMail.VerifyPathRoundTrip` | users/services.py:15 | for any non-empty URL-safe token, the route recovers exactly that token from its link's path |
| `UserViews.EmailVerification` | users/views.py:37-41 | a token held by no user gives 404; a token held by several gives a server error; in both cases nothing changes; a token held by exactly one user activates that user and changes no other |
| `UserViews.VerificationIdempotent` | users/views.py:38-40 | the token is not cleared, so repeating the verification changes nothing more |
| `UserViews.Register` | users/views.py:29-34 | the new user is appended inactive, holding the fresh token, and the verification letter is sent to them |
| `UserViews.RegisterThenVerify` | users/views.py:29-41 | after registering, following the mailed link activates the new user and nobody else, provided no existing user holds the token |
| `UserViews.UsersList` | users/views.py:20-21 | the user list holds exactly the non-staff users, each as often as the table holds it and nothing added |
| `UserViews.ProfileFormFor` | users/views.py:55-59 | a user who may block accounts gets the form exposing only `is_active`; everyone else gets the self-edit form |

## Left out

- The ORM. Each `save()` is modelled as replacing or appending a row. The repeated saves inside the send loop are collapsed into the final one, since no one reads the row in between.
- The clock. `start_mailing` reads it twice, once for the start time and once for the end time. The model uses one instant `now` for both.
- The mail transport and the sender address (a setting; config/settings.py is not part of this model). Both are parameters. Registration is modelled with a transport that succeeds: a failing send there would raise after the user is saved.
- The random token source. The token is a parameter. The round trip assumes it is non-empty and URL-safe, which holds for `token_urlsafe(16)`.
- Cache expiry, and the page caching of the index and detail views. The per-list cache is modelled as an optional stored value with no time.
- The attempt timestamp `date_mailing` (set by the database), list orderings and pagination. A table sequence is the order in which the model reads the table; it is not kept sorted by the model classes' `ordering`.
- MailViews.CreateRecipient and MailViews.CreateMessage: the new row is appended to its table rather than placed at its `ordering` position (full name for recipients, subject for messages). After a create, the model may therefore read recipients, and so write letters and ledger rows, in a different order from the source's `recipients.all()`.
- Templates, the admin site and all routing except the verify route. The `/users/` prefix of that route comes from the project URL table, which is not part of this model. The prefix used is the one the verification link is built with.
- The detail, update and delete views that only configure the framework, and the login and permission-required redirects.
- A requester who is not logged in (possible on the index page and the profile edit page). The model's requester is always a stored user.
- The style mixins: they only set widget CSS. The users' mixin defines `init` rather than `__init__`, so it never runs anyway.
- The seed commands that create an administrator and the manager group, and `UserService.reset_password`. Nothing calls the latter, and it reads `user.request`, which a user does not have.
- Concurrent runs of the same mailing: the code has no locking.
- Permissions are opaque strings. `mailapp.can_view_recipient_mail`, `mailapp.can_view_mail_message` and `mailapp.can_view_mailing_attempt` are checked by the views but declared by no model, so in practice only superusers and explicit grants pass them.
- Validation.IsDigitString and Validation.CleanPhoneNumber: digits are ASCII '0' to '9'. Python's `isdigit` also accepts other Unicode digits, so the model refuses some numbers the source accepts.
- Form fields strip surrounding whitespace before they check a value. The create views take the values as stripped.
- MailViews.CreateRecipient and MailViews.CreateMessage: a refused form is re-rendered with its errors. The model says only that nothing is saved, not which messages are shown.
- MailForms.ValidateMailingForm: it reports only the first failing field, while the framework collects the errors of all fields. Its "required" and "invalid choice" texts stand in for the framework's localised messages.

## Findings

| source | as written | input that shows it | evidently intended | confidence | as-written member | corrected member |
|---|---|---|---|---|---|---|
| mailapp/views.py:158-160 | the create view saves the form with `commit=False` and then saves the instance, but never calls `save_m2m`, so the selected recipients are not stored | a valid form that selects recipient 7: the new mailing has no recipients, and starting it writes no attempt and leaves it Создана | the new mailing holds the selected recipients, and starting it writes one attempt per recipient | not executed | `MailViews.CreatedMailingSendsNothing` | `MailViews.CreatedMailingWithRecipientsSends` |
| mailapp/views.py:44-49 | the list views cache the unfiltered table under a key shared by all users, and return any non-empty cached value without scoping it | a user without the permission lists recipients twice while a recipient owned by someone else exists: the first listing is empty, and the second shows the other owner's recipient (the same holds at mailapp/views.py:101-106 and mailapp/views.py:214-219) | a user without the elevated permission only ever sees rows they own | not executed | `MailViews.CachedListLeaks` | `MailViews.ScopedRows` |

=== FILE: accounts.dfy ===
/** The custom user model: an account identified by its e-mail address, with
    the flags and permission strings that the views consult. */
module Accounts {
  import opened Common

  /** A row of the user table. `perms` holds every permission granted to the
      user directly or through a group, written `app_label.codename`. */
  datatype User = User(
    id: Id,
    email: string,
    firstName: string,
    lastName: string,
    phoneNumber: Option<string>,
    area: Option<string>,
    isActive: bool,
    isStaff: bool,
    isSuperuser: bool,
    perms: set<string>,
    verificationToken: Option<string>)

  const CanBlockingUser := "users.can_blocking_user"

  /** Django's `has_perm`: an inactive account holds no permission, an active
      superuser holds every permission, anyone else holds exactly the granted
      ones. */
  predicate HasPerm(u: User, perm: string)
  {
    u.isActive && (u.isSuperuser || perm in u.perms)
  }

  /** Whether a nullable owner column refers to `u`, as `filter(owner=u)`
      compares it: a null owner matches nobody. */
  predicate OwnedBy(owner: Option<Id>, u: User)
  {
    owner == Some(u.id)
  }
}

=== FILE: command.dfy ===
/** The `start_mailing` management command: it looks a mailing up by key,
    overwrites its status and frequency with the command-line options, saves
    it, starts it, and prints a fixed confirmation line. */
module StartCommand {
  import opened Common
  import opened Models
  import opened MailingService

  /** The parsed `--status` and `--frequency` options. */
  datatype Options = Options(status: MailingStatus, frequency: Frequency)

  const DefaultStatus := Created
  const DefaultFrequency := Daily

  /** The frequency whose display label is `t`: the option's choices are the
      labels, not the stored keys. */
  function FrequencyChoice(t: string): (r: Option<Frequency>)
    ensures r.Some? ==> FrequencyLabel(r.value) == t
    ensures r.None? ==> forall f: Frequency :: FrequencyLabel(f) != t
  {
    if t == "раз в минуту" then Some(Minutely)
    else if t == "раз в день" then Some(Daily)
    else if t == "раз в неделю" then Some(Weekly)
    else if t == "раз в месяц" then Some(Monthly)
    else None
  }

  /** Option parsing: an absent option takes its default, a value outside
      the option's choices is refused. */
  function ParseOptions(status: Option<string>, frequency: Option<string>): (r: Option<Options>)
    ensures status == None && frequency == None ==> r == Some(Options(Created, Daily))
    ensures r.Some? ==> (status == None ==> r.value.status == DefaultStatus)
    ensures r.Some? ==> (frequency == None ==> r.value.frequency == DefaultFrequency)
    ensures r.Some? && status.Some? ==> StatusLabel(r.value.status) == status.value
    ensures r.Some? && frequency.Some? ==> FrequencyLabel(r.value.frequency) == frequency.value
    ensures r.None? ==> (status.Some? && ParseStatus(status.value).None?) || (frequency.Some? && FrequencyChoice(frequency.value).None?)
  {
    var st := if status == None then Some(DefaultStatus) else ParseStatus(status.value);
    var fr := if frequency == None then Some(DefaultFrequency) else FrequencyChoice(frequency.value);
    if st.Some? && fr.Some? then Some(Options(st.value, fr.value)) else None
  }

  /** How the command ends: the confirmation line was printed, or an
      exception escaped (no such mailing, or a mailing without a message,
      after its overwrite and times were saved). */
  datatype CommandError = MailingDoesNotExist | MessageMissing
  datatype CommandOutcome = Printed(store: Store, line: string) | Raised(store: Store, error: CommandError)

  function ConfirmationLine(id: nat): string
  {
    "Mailing with ID " + Decimal(id) + " has been started"
  }

  /** The mailing object after the overwrite: the option's status and the
      frequency's display label, nothing else changed. */
  function Overwrite(m: Mailing, opts: Options): (r: Mailing)
    ensures r.status == opts.status && r.frequency == FrequencyLabel(opts.frequency)
    ensures !IsFrequencyKey(r.frequency)
    ensures r.(status := m.status, frequency := m.frequency) == m
  {
    LabelIsNeverKey(opts.frequency);
    m.(status := opts.status, frequency := FrequencyLabel(opts.frequency))
  }

  /** The database once the overwritten mailing is saved, before the start. */
  function SaveOverwrite(s: Store, m: Mailing, opts: Options): Store
  {
    s.(mailings := SaveMailing(s.mailings, Overwrite(m, opts)))
  }

  /** `handle`: an unknown key raises before anything is written; a known
      mailing is overwritten, saved and started unconditionally, and only a
      start that does not raise reaches the confirmation line. */
  function Handle(s: Store, mailingId: int, opts: Options, now: Time, sender: string, send: Transport): (r: CommandOutcome)
    ensures r == Raised(s, MailingDoesNotExist) <==> mailingId < 0 || IndexOf(s.mailings, MailingId, mailingId) == None
    ensures r.Printed? ==> r.line == ConfirmationLine(mailingId)
  {
    if mailingId < 0 then Raised(s, MailingDoesNotExist)
    else match IndexOf(s.mailings, MailingId, mailingId)
      case None => Raised(s, MailingDoesNotExist)
      case Some(k) =>
        var m := s.mailings[k];
        var e := StartInStore(SaveOverwrite(s, m, opts), Overwrite(m, opts), now, sender, send);
        if e.raised then Raised(e.store, MessageMissing) else Printed(e.store, ConfirmationLine(mailingId))
  }

  /** For a known mailing the command's effect is exactly the start of the
      overwritten mailing, and it raises only when that start raises. */
  lemma HandleStartsOverwritten(s: Store, mailingId: nat, opts: Options, now: Time, sender: string, send: Transport)
    requires IndexOf(s.mailings, MailingId, mailingId).Some?
    ensures var m := s.mailings[IndexOf(s.mailings, MailingId, mailingId).value];
      var e := StartInStore(SaveOverwrite(s, m, opts), Overwrite(m, opts), now, sender, send);
      var r := Handle(s, mailingId, opts, now, sender, send);
      && r.store == e.store
      && (r.Printed? <==> !e.raised)
      && (r.Raised? ==> r.error == MessageMissing)
  {
  }

  /** Whatever status the option forces, even Завершена, a run in which some
      send returns normally leaves the mailing Запущена; the saved mailing
      also carries the frequency label. */
  lemma ForcedStatusStillStarts(s: Store, mailingId: nat, opts: Options, now: Time, sender: string, send: Transport)
    requires IndexOf(s.mailings, MailingId, mailingId).Some?
    ensures var m := Overwrite(s.mailings[IndexOf(s.mailings, MailingId, mailingId).value], opts);
      var s1 := SaveOverwrite(s, s.mailings[IndexOf(s.mailings, MailingId, mailingId).value], opts);
      var e := StartInStore(s1, m, now, sender, send);
      && e.mailing.frequency == FrequencyLabel(opts.frequency)
      && (!e.raised ==> (e.mailing.status == Started <==>
            opts.status == Started ||
            SomeSendReturned(MessageOf(s1, m).value.subject, MessageOf(s1, m).value.body, sender, RecipientEmails(s1, m), send)))
  {
  }

  /** The command never looks at the delivery outcomes: whether it prints,
      and what, is the same for any two transports. */
  lemma OutputIgnoresDelivery(s: Store, mailingId: int, opts: Options, now: Time, sender: string, send1: Transport, send2: Transport)
    ensures Handle(s, mailingId, opts, now, sender, send1).Printed? == Handle(s, mailingId, opts, now, sender, send2).Printed?
    ensures Handle(s, mailingId, opts, now, sender, send1).Printed? ==>
      Handle(s, mailingId, opts, now, sender, send1).line == Handle(s, mailingId, opts, now, sender, send2).line
  {
  }
}

=== FILE: common.dfy ===
/** Shared vocabulary of the model: optional values, results of validation,
    the letters handed to the mail transport, and order-preserving filters
    over the sequences that stand for database tables. */
module Common {

  /** A nullable column or a lookup that may miss. */
  datatype Option<+T> = None | Some(value: T)

  /** The outcome of a form-field `clean_*` method: the cleaned value, or the
      text of the `ValidationError` it raises. */
  datatype Result<+T> = Success(value: T) | Failure(error: string)

  /** Primary keys of every table. */
  type Id = nat

  /** An instant as returned by the clock; only equality matters here. */
  type Time = int

  /** One call of the mail transport: subject, body, sender and the
      recipient list, in the argument order of `send_mail`. */
  datatype Letter = Letter(subject: string, body: string, sender: string, to: seq<string>)

  /** The records of `xs` that satisfy `p`, in their original order: the
      model of an ORM `filter(...)` over a table. */
  function Filter<T>(xs: seq<T>, p: T -> bool): (r: seq<T>)
    ensures |r| <= |xs|
    ensures forall i :: 0 <= i < |r| ==> r[i] in xs && p(r[i])
    ensures forall i :: 0 <= i < |xs| && p(xs[i]) ==> xs[i] in r
  {
    if xs == [] then []
    else (if p(xs[0]) then [xs[0]] else []) + Filter(xs[1..], p)
  }

  /** The number of records of `xs` that satisfy `p`: an ORM `.count()`. */
  function Count<T>(xs: seq<T>, p: T -> bool): nat
  {
    |Filter(xs, p)|
  }

  /** Filtering with a predicate that holds everywhere keeps everything. */
  lemma {:induction false} FilterAll<T>(xs: seq<T>, p: T -> bool)
    requires forall x :: x in xs ==> p(x)
    ensures Filter(xs, p) == xs
  {
    if xs != [] {
      FilterAll(xs[1..], p);
    }
  }

  /** A weaker predicate never selects fewer records. */
  lemma {:induction false} CountMonotone<T>(xs: seq<T>, p: T -> bool, q: T -> bool)
    requires forall x :: x in xs && p(x) ==> q(x)
    ensures Count(xs, p) <= Count(xs, q)
  {
    if xs != [] {
      CountMonotone(xs[1..], p, q);
    }
  }

  /** Splitting a table by a predicate and its negation loses no record
      and counts none twice. */
  lemma {:induction false} CountComplement<T>(xs: seq<T>, p: T -> bool, q: T -> bool)
    requires forall x :: x in xs ==> (q(x) <==> !p(x))
    ensures Count(xs, p) + Count(xs, q) == |xs|
  {
    if xs != [] {
      CountComplement(xs[1..], p, q);
    }
  }

  /** A filter selects nothing exactly when no record satisfies it. */
  lemma {:induction false} FilterEmptyIff<T>(xs: seq<T>, p: T -> bool)
    ensures Filter(xs, p) == [] <==> forall i :: 0 <= i < |xs| ==> !p(xs[i])
  {
    if xs != [] {
      FilterEmptyIff(xs[1..], p);
      assert forall i :: 1 <= i < |xs| ==> xs[i] == xs[1..][i - 1];
    }
  }

  /** Filtering adds no record: each one occurs in the result at most as
      often as in the table. */
  lemma {:induction false} FilterSubMultiset<T>(xs: seq<T>, p: T -> bool)
    ensures multiset(Filter(xs, p)) <= multiset(xs)
  {
    if xs != [] {
      FilterSubMultiset(xs[1..], p);
      assert xs == [xs[0]] + xs[1..];
    }
  }

  /** A record the filter selects occurs in the result exactly as often as
      in the table. */
  lemma {:induction false} FilterKeepsCount<T>(xs: seq<T>, p: T -> bool, x: T)
    requires p(x)
    ensures multiset(Filter(xs, p))[x] == multiset(xs)[x]
  {
    if xs != [] {
      FilterKeepsCount(xs[1..], p, x);
      assert xs == [xs[0]] + xs[1..];
    }
  }

  /** A filter keeps each selected record exactly as often as the table
      holds it, and adds none: no row is listed twice or dropped. */
  lemma FilterMultiset<T>(xs: seq<T>, p: T -> bool)
    ensures multiset(Filter(xs, p)) <= multiset(xs)
    ensures forall i :: 0 <= i < |xs| && p(xs[i]) ==> multiset(Filter(xs, p))[xs[i]] == multiset(xs)[xs[i]]
  {
    FilterSubMultiset(xs, p);
    forall i | 0 <= i < |xs| && p(xs[i])
      ensures multiset(Filter(xs, p))[xs[i]] == multiset(xs)[xs[i]]
    {
      FilterKeepsCount(xs, p, xs[i]);
    }
  }

  /** Filtering distributes over concatenation. */
  lemma {:induction false} FilterAppend<T>(xs: seq<T>, ys: seq<T>, p: T -> bool)
    ensures Filter(xs + ys, p) == Filter(xs, p) + Filter(ys, p)
  {
    if xs == [] {
      assert xs + ys == ys;
    } else {
      assert (xs + ys)[1..] == xs[1..] + ys;
      FilterAppend(xs[1..], ys, p);
    }
  }

  /** Two equally long tables whose records correspond position by position
      under `p` and `q` have equal counts. */
  lemma {:induction false} CountPointwise<T, U>(xs: seq<T>, p: T -> bool, ys: seq<U>, q: U -> bool)
    requires |xs| == |ys|
    requires forall i :: 0 <= i < |xs| ==> (p(xs[i]) <==> q(ys[i]))
    ensures Count(xs, p) == Count(ys, q)
  {
    if xs != [] {
      CountPointwise(xs[1..], p, ys[1..], q);
    }
  }

  /** The position of the first record whose key is `id`, as `get(pk=id)`
      finds it. */
  function IndexOf<T>(xs: seq<T>, key: T -> Id, id: Id): (r: Option<nat>)
    ensures r.Some? ==> r.value < |xs| && key(xs[r.value]) == id
    ensures r.Some? ==> forall j :: 0 <= j < r.value ==> key(xs[j]) != id
    ensures r.None? <==> forall j :: 0 <= j < |xs| ==> key(xs[j]) != id
  {
    if xs == [] then None
    else if key(xs[0]) == id then Some(0)
    else match IndexOf(xs[1..], key, id)
      case None => None
      case Some(k) => Some(k + 1)
  }

  /** No two records share a key: a primary key or a `unique=True` column. */
  ghost predicate UniqueKeys<T, K>(xs: seq<T>, key: T -> K)
  {
    forall i, j :: 0 <= i < j < |xs| ==> key(xs[i]) != key(xs[j])
  }

  /** The number a string of decimal digits denotes. */
  function DigitsValue(s: string): nat
    requires forall i :: 0 <= i < |s| ==> '0' <= s[i] <= '9'
  {
    if s == [] then 0 else DigitsValue(s[..|s| - 1]) * 10 + (s[|s| - 1] as int - '0' as int)
  }

  /** Base-10 rendering of a natural number, as an f-string prints an int:
      digits only, denoting `n`, and without a leading zero. */
  function Decimal(n: nat): (r: string)
    ensures |r| >= 1
    ensures forall i :: 0 <= i < |r| ==> '0' <= r[i] <= '9'
    ensures DigitsValue(r) == n
    ensures r[0] == '0' ==> r == "0"
  {
    if n < 10 then [Digit(n)]
    else
      var front := Decimal(n / 10);
      var r := front + [Digit(n % 10)];
      assert r[..|r| - 1] == front;
      r
  }

  function Digit(d: nat): (c: char)
    requires d < 10
    ensures '0' <= c <= '9'
    ensures c as int - '0' as int == d
  {
    ['0', '1', '2', '3', '4', '5', '6', '7', '8', '9'][d]
  }
}

=== FILE: mailforms.dfy ===
/** The mailing form: its choice lists restricted to the requesting user's
    own records, its field validation, and the three columns it edits. */
module MailForms {
  import opened Common
  import opened Accounts
  import opened Models

  /** The recipients offered to `user` (every recipient when no user is
      passed to the form). */
  function RecipientChoices(s: Store, user: Option<User>): (r: seq<Recipient>)
    ensures user == None ==> r == s.recipients
    ensures user.Some? ==> forall i :: 0 <= i < |r| ==> r[i] in s.recipients && OwnedBy(r[i].owner, user.value)
    ensures user.Some? ==> forall i :: 0 <= i < |s.recipients| && OwnedBy(s.recipients[i].owner, user.value) ==> s.recipients[i] in r
  {
    match user
    case None => s.recipients
    case Some(u) => Filter(s.recipients, (rc: Recipient) => OwnedBy(rc.owner, u))
  }

  /** The messages offered to `user` (every message when no user is passed). */
  function MessageChoices(s: Store, user: Option<User>): (r: seq<MailMessage>)
    ensures user == None ==> r == s.messages
    ensures user.Some? ==> forall i :: 0 <= i < |r| ==> r[i] in s.messages && OwnedBy(r[i].owner, user.value)
    ensures user.Some? ==> forall i :: 0 <= i < |s.messages| && OwnedBy(s.messages[i].owner, user.value) ==> s.messages[i] in r
  {
    match user
    case None => s.messages
    case Some(u) => Filter(s.messages, (mm: MailMessage) => OwnedBy(mm.owner, u))
  }

  const NoRecipientsError := "Вы должны указать получателей."

  /** `clean_recipients`: an empty selection is refused, any other is kept. */
  function CleanRecipients(selected: set<Id>): (r: Result<set<Id>>)
    ensures r.Failure? <==> selected == {}
    ensures r.Success? ==> r.value == selected
    ensures r.Failure? ==> r.error == NoRecipientsError
  {
    if selected == {} then Failure(NoRecipientsError) else Success(selected)
  }

  /** The framework's messages for a missing required value and for a value
      outside a field's choices. */
  const RequiredError := "This field is required."
  const InvalidChoiceError := "Select a valid choice."

  /** The three columns the mailing form edits. */
  datatype MailingInput = MailingInput(message: Option<Id>, recipients: set<Id>, frequency: string)

  function RecipientIds(rs: seq<Recipient>): set<Id>
  {
    set i | 0 <= i < |rs| :: rs[i].id
  }

  function MessageIds(ms: seq<MailMessage>): set<Id>
  {
    set i | 0 <= i < |ms| :: ms[i].id
  }

  /** Whether the form, offered the choices for `user`, accepts `input`. */
  predicate Acceptable(s: Store, user: Option<User>, input: MailingInput)
  {
    && (input.message == None || input.message.value in MessageIds(MessageChoices(s, user)))
    && input.recipients != {}
    && input.recipients <= RecipientIds(RecipientChoices(s, user))
    && IsFrequencyKey(input.frequency)
  }

  /** Cleaning the bound form, field by field in declaration order. The
      optional message must be one of the offered messages; the required
      recipient selection must be non-empty and within the offered
      recipients before `clean_recipients` runs; the required frequency must
      be one of the stored keys. */
  function ValidateMailingForm(s: Store, user: Option<User>, input: MailingInput): (r: Result<MailingInput>)
    ensures r.Success? <==> Acceptable(s, user, input)
    ensures r.Success? ==> r.value == input
    ensures input.recipients == {} ==> r.Failure?
    ensures r.Failure? ==> r.error != NoRecipientsError
  {
    if input.message.Some? && input.message.value !in MessageIds(MessageChoices(s, user)) then
      Failure(InvalidChoiceError)
    else if input.recipients == {} then
      Failure(RequiredError)
    else if !(input.recipients <= RecipientIds(RecipientChoices(s, user))) then
      Failure(InvalidChoiceError)
    else match CleanRecipients(input.recipients)
      case Failure(e) => Failure(e)
      case Success(selected) =>
        if input.frequency == "" then Failure(RequiredError)
        else if !IsFrequencyKey(input.frequency) then Failure(InvalidChoiceError)
        else Success(input.(recipients := selected))
  }

  /** A form bound to a user accepts only that user's recipients and, when a
      message is chosen, only that user's message: every selection within
      the offered choices, which `ValidateMailingForm` demands, is owned. */
  lemma AcceptedSelectionIsOwned(s: Store, u: User, input: MailingInput)
    requires input.recipients <= RecipientIds(RecipientChoices(s, Some(u)))
    requires input.message == None || input.message.value in MessageIds(MessageChoices(s, Some(u)))
    ensures forall id :: id in input.recipients ==>
      exists k :: 0 <= k < |s.recipients| && s.recipients[k].id == id && OwnedBy(s.recipients[k].owner, u)
    ensures input.message.Some? ==>
      exists k :: 0 <= k < |s.messages| && s.messages[k].id == input.message.value && OwnedBy(s.messages[k].owner, u)
  {
    var rcs := RecipientChoices(s, Some(u));
    forall id | id in input.recipients
      ensures exists k :: 0 <= k < |s.recipients| && s.recipients[k].id == id && OwnedBy(s.recipients[k].owner, u)
    {
      var i :| 0 <= i < |rcs| && rcs[i].id == id;
      var k :| 0 <= k < |s.recipients| && s.recipients[k] == rcs[i];
    }
    if input.message.Some? {
      var mcs := MessageChoices(s, Some(u));
      var i :| 0 <= i < |mcs| && mcs[i].id == input.message.value;
      var k :| 0 <= k < |s.messages| && s.messages[k] == mcs[i];
    }
  }

  /** Saving the form onto an existing mailing: only the message, the
      recipient set and the frequency change. */
  function ApplyMailingForm(m: Mailing, input: MailingInput): (r: Mailing)
    ensures r.message == input.message && r.recipients == input.recipients && r.frequency == input.frequency
    ensures r.(message := m.message, recipients := m.recipients, frequency := m.frequency) == m
  {
    m.(message := input.message, recipients := input.recipients, frequency := input.frequency)
  }
}

=== FILE: mailviews.dfy ===
/** The request handlers of the mailing application that carry logic of
    their own: the cached, permission-scoped list views, the dashboard and
    ledger counts, the owner stamping of the create views, and the status
    dispatch of a POST on a mailing's detail page. */
module MailViews {
  import opened Common
  import opened Accounts
  import opened Models
  import opened MailingService
  import opened MailForms
  import opened Validation

  const CanViewMailing := "mailapp.can_view_mailing"
  const CanDisablingMailing := "mailapp.can_disabling_mailing"
  const CanViewRecipientMail := "mailapp.can_view_recipient_mail"
  const CanViewMailMessage := "mailapp.can_view_mail_message"
  const CanViewMailingAttempt := "mailapp.can_view_mailing_attempt"

  /** The rows a list view shows and the value left under its cache key. */
  datatype Listing<T> = Listing(rows: seq<T>, cache: Option<seq<T>>)

  /** `if cached:` — a missing key or an empty cached collection is a miss. */
  predicate CacheHit<T>(cached: Option<seq<T>>)
  {
    cached.Some? && |cached.value| > 0
  }

  /** The rows a user may see: all of them with the elevated permission,
      otherwise only those `mine` selects. */
  function ScopedRows<T>(all: seq<T>, elevated: bool, mine: T -> bool): (r: seq<T>)
    ensures elevated ==> r == all
    ensures !elevated ==> forall i :: 0 <= i < |r| ==> r[i] in all && mine(r[i])
    ensures !elevated ==> forall i :: 0 <= i < |all| && mine(all[i]) ==> all[i] in r
    ensures multiset(r) <= multiset(all)
    ensures forall i :: 0 <= i < |all| && (elevated || mine(all[i])) ==> multiset(r)[all[i]] == multiset(all)[all[i]]
  {
    FilterMultiset(all, mine);
    if elevated then all else Filter(all, mine)
  }

  /** The `get_queryset` shared by the recipient, message and mailing lists:
      a hit returns the cached collection as it is; a miss stores the whole
      table under the key and returns the scoped rows. */
  function CachedScopedList<T>(cached: Option<seq<T>>, all: seq<T>, elevated: bool, mine: T -> bool): (r: Listing<T>)
    ensures CacheHit(cached) ==> r.rows == cached.value && r.cache == cached
    ensures !CacheHit(cached) ==> r.cache == Some(all) && r.rows == ScopedRows(all, elevated, mine)
  {
    if CacheHit(cached) then Listing(cached.value, cached)
    else Listing(ScopedRows(all, elevated, mine), Some(all))
  }

  function RecipientList(cached: Option<seq<Recipient>>, s: Store, u: User): Listing<Recipient>
  {
    CachedScopedList(cached, s.recipients, HasPerm(u, CanViewRecipientMail), (r: Recipient) => OwnedBy(r.owner, u))
  }

  function MessageList(cached: Option<seq<MailMessage>>, s: Store, u: User): Listing<MailMessage>
  {
    CachedScopedList(cached, s.messages, HasPerm(u, CanViewMailMessage), (m: MailMessage) => OwnedBy(m.owner, u))
  }

  function MailingList(cached: Option<seq<Mailing>>, s: Store, u: User): Listing<Mailing>
  {
    CachedScopedList(cached, s.mailings, HasPerm(u, CanViewMailing), (m: Mailing) => OwnedBy(m.owner, u))
  }

  /** On a cache miss a user without the elevated permission sees exactly
      their own rows of each table, and one with it sees the whole table;
      the whole table is what gets cached either way. */
  lemma ListsOnMiss(s: Store, u: User)
    ensures var r := RecipientList(None, s, u);
      && r.cache == Some(s.recipients)
      && (HasPerm(u, CanViewRecipientMail) ==> r.rows == s.recipients)
      && (!HasPerm(u, CanViewRecipientMail) ==>
            (forall i :: 0 <= i < |r.rows| ==> r.rows[i] in s.recipients && OwnedBy(r.rows[i].owner, u))
            && (forall i :: 0 <= i < |s.recipients| && OwnedBy(s.recipients[i].owner, u) ==> s.recipients[i] in r.rows)
            && multiset(r.rows) <= multiset(s.recipients)
            && (forall i :: 0 <= i < |s.recipients| && OwnedBy(s.recipients[i].owner, u) ==>
                  multiset(r.rows)[s.recipients[i]] == multiset(s.recipients)[s.recipients[i]]))
    ensures var r := MessageList(None, s, u);
      && r.cache == Some(s.messages)
      && (HasPerm(u, CanViewMailMessage) ==> r.rows == s.messages)
      && (!HasPerm(u, CanViewMailMessage) ==>
            (forall i :: 0 <= i < |r.rows| ==> r.rows[i] in s.messages && OwnedBy(r.rows[i].owner, u))
            && (forall i :: 0 <= i < |s.messages| && OwnedBy(s.messages[i].owner, u) ==> s.messages[i] in r.rows)
            && multiset(r.rows) <= multiset(s.messages)
            && (forall i :: 0 <= i < |s.messages| && OwnedBy(s.messages[i].owner, u) ==>
                  multiset(r.rows)[s.messages[i]] == multiset(s.messages)[s.messages[i]]))
    ensures var r := MailingList(None, s, u);
      && r.cache == Some(s.mailings)
      && (HasPerm(u, CanViewMailing) ==> r.rows == s.mailings)
      && (!HasPerm(u, CanViewMailing) ==>
            (forall i :: 0 <= i < |r.rows| ==> r.rows[i] in s.mailings && OwnedBy(r.rows[i].owner, u))
            && (forall i :: 0 <= i < |s.mailings| && OwnedBy(s.mailings[i].owner, u) ==> s.mailings[i] in r.rows)
            && multiset(r.rows) <= multiset(s.mailings)
            && (forall i :: 0 <= i < |s.mailings| && OwnedBy(s.mailings[i].owner, u) ==>
                  multiset(r.rows)[s.mailings[i]] == multiset(s.mailings)[s.mailings[i]]))
  {
  }

  /** A non-empty cached collection is served to every user alike. */
  lemma CacheHitIgnoresUser(cached: Option<seq<Recipient>>, s: Store, u1: User, u2: User)
    requires CacheHit(cached)
    ensures RecipientList(cached, s, u1) == RecipientList(cached, s, u2)
    ensures RecipientList(cached, s, u1).rows == cached.value
  {
  }

  /** As written, the cache serves other owners' rows: a user without the
      elevated permission who lists the recipients twice sees, the second
      time, a recipient owned by someone else. */
  lemma CachedListLeaks()
    ensures var alice := User(1, "alice@x.com", "", "", None, None, true, false, false, {}, None);
      var theirs := Recipient(10, "b@x.com", "B", None, Some(2));
      var s := Store([], [theirs], [], [], []);
      var first := RecipientList(None, s, alice);
      var second := RecipientList(first.cache, s, alice);
      && first.rows == []
      && theirs in second.rows && !OwnedBy(theirs.owner, alice)
  {
  }

  /** Whether the attempt `a` belongs to a mailing owned by `u`
      (`mailing__owner=u`). */
  predicate AttemptOwnedBy(s: Store, a: Attempt, u: User)
  {
    OwnedBy(MailingOwner(s.mailings, a.mailing), u)
  }

  /** The attempt list's `get_queryset`: a hit returns the cached collection;
      a miss caches the whole ledger and returns the attempts of the user's
      own mailings, for every user, elevated or not. */
  function AttemptList(cached: Option<seq<Attempt>>, s: Store, u: User): (r: Listing<Attempt>)
    ensures CacheHit(cached) ==> r.rows == cached.value && r.cache == cached
    ensures !CacheHit(cached) ==> r.cache == Some(s.attempts)
    ensures !CacheHit(cached) ==> forall i :: 0 <= i < |r.rows| ==> r.rows[i] in s.attempts && AttemptOwnedBy(s, r.rows[i], u)
    ensures !CacheHit(cached) ==> forall i :: 0 <= i < |s.attempts| && AttemptOwnedBy(s, s.attempts[i], u) ==> s.attempts[i] in r.rows
    ensures !CacheHit(cached) ==> multiset(r.rows) <= multiset(s.attempts)
    ensures !CacheHit(cached) ==> forall i :: 0 <= i < |s.attempts| && AttemptOwnedBy(s, s.attempts[i], u) ==>
      multiset(r.rows)[s.attempts[i]] == multiset(s.attempts)[s.attempts[i]]
  {
    FilterMultiset(s.attempts, (a: Attempt) => AttemptOwnedBy(s, a, u));
    if CacheHit(cached) then Listing(cached.value, cached)
    else Listing(Filter(s.attempts, (a: Attempt) => AttemptOwnedBy(s, a, u)), Some(s.attempts))
  }

  /** The success and failure totals shown above the attempt list. */
  datatype Totals = Totals(sent: nat, failed: nat)

  /** The attempts the totals range over: the whole ledger with the elevated
      permission, otherwise the attempts of the user's own mailings. */
  function TotalsScope(s: Store, u: User): seq<Attempt>
  {
    if HasPerm(u, CanViewMailingAttempt) then s.attempts
    else Filter(s.attempts, (a: Attempt) => AttemptOwnedBy(s, a, u))
  }

  /** The totals count the attempts in scope whose stored status text is
      "Успешно" and "Не успешно"; every attempt falls under exactly one. */
  function AttemptTotals(s: Store, u: User): (r: Totals)
    ensures r.sent + r.failed == |TotalsScope(s, u)|
    ensures HasPerm(u, CanViewMailingAttempt) ==> r.sent + r.failed == |s.attempts|
    ensures r.sent == Count(TotalsScope(s, u), (a: Attempt) => a.status == Successfully)
    ensures r.failed == Count(TotalsScope(s, u), (a: Attempt) => a.status == Unsuccessfully)
  {
    var scope := TotalsScope(s, u);
    var sent := (a: Attempt) => AttemptStatusLabel(a.status) == "Успешно";
    var failed := (a: Attempt) => AttemptStatusLabel(a.status) == "Не успешно";
    CountPointwise(scope, sent, scope, (a: Attempt) => a.status == Successfully);
    CountPointwise(scope, failed, scope, (a: Attempt) => a.status == Unsuccessfully);
    CountComplement(scope, (a: Attempt) => a.status == Successfully, (a: Attempt) => a.status == Unsuccessfully);
    Totals(Count(scope, sent), Count(scope, failed))
  }

  /** The three numbers on the index page. */
  datatype Dashboard = Dashboard(mailings: nat, active: nat, recipients: nat)

  function DashboardCounts(s: Store, u: User): (r: Dashboard)
    ensures r.active <= r.mailings <= |s.mailings|
    ensures r.recipients <= |s.recipients|
    ensures HasPerm(u, CanViewMailing) ==> r.mailings == |s.mailings| && r.recipients == |s.recipients|
    ensures HasPerm(u, CanViewMailing) ==> r.active == Count(s.mailings, (m: Mailing) => m.status == Started)
    ensures !HasPerm(u, CanViewMailing) ==>
      && r.mailings == Count(s.mailings, (m: Mailing) => OwnedBy(m.owner, u))
      && r.active == Count(s.mailings, (m: Mailing) => m.status == Started && OwnedBy(m.owner, u))
      && r.recipients == Count(s.recipients, (rc: Recipient) => OwnedBy(rc.owner, u))
  {
    if HasPerm(u, CanViewMailing) then
      CountMonotone(s.mailings, (m: Mailing) => m.status == Started, (m: Mailing) => true);
      FilterAll(s.mailings, (m: Mailing) => true);
      Dashboard(|s.mailings|, Count(s.mailings, (m: Mailing) => m.status == Started), |s.recipients|)
    else
      CountMonotone(s.mailings, (m: Mailing) => m.status == Started && OwnedBy(m.owner, u), (m: Mailing) => OwnedBy(m.owner, u));
      Dashboard(Count(s.mailings, (m: Mailing) => OwnedBy(m.owner, u)),
                Count(s.mailings, (m: Mailing) => m.status == Started && OwnedBy(m.owner, u)),
                Count(s.recipients, (rc: Recipient) => OwnedBy(rc.owner, u)))
  }

  /** How a request ends. `NoHttpResponse` is the detail view's `post`
      falling through without returning, which the framework turns into a
      server error. */
  datatype Response = Redirect(route: string) | NotFound | NoHttpResponse | ServerError

  /** Whether `u` may stop mailing `m`: the disabling permission, or
      ownership. */
  predicate MayStop(u: User, m: Mailing)
  {
    HasPerm(u, CanDisablingMailing) || OwnedBy(m.owner, u)
  }

  /** The mailing a POST with key `pk` addresses, as `get_object_or_404`
      finds it. */
  function Target(s: Store, pk: Id): (r: Option<Mailing>)
    ensures r.Some? ==> r.value in s.mailings && r.value.id == pk
    ensures r.None? <==> forall i :: 0 <= i < |s.mailings| ==> s.mailings[i].id != pk
  {
    match IndexOf(s.mailings, MailingId, pk)
    case None => None
    case Some(k) => Some(s.mailings[k])
  }

  /** The detail page's POST: a Создана mailing is started; a Запущена
      mailing is stopped when the user may stop it; any other request
      changes nothing and returns no response. */
  function PostMailingDetail(s: Store, pk: Id, u: User, now: Time, sender: string, send: Transport): (r: (Store, Response))
    ensures Target(s, pk) == None <==> r == (s, NotFound)
    ensures r.1 == NoHttpResponse <==>
      Target(s, pk).Some? && (Target(s, pk).value.status == Finished ||
                              (Target(s, pk).value.status == Started && !MayStop(u, Target(s, pk).value)))
    ensures r.1 == NoHttpResponse ==> r.0 == s
    ensures r.1 == Redirect("mailapp:mailing_list") ==> r.0 == StopInStore(s, Target(s, pk).value)
  {
    match Target(s, pk)
    case None => (s, NotFound)
    case Some(m) =>
      if m.status == Created then
        var e := StartInStore(s, m, now, sender, send);
        (e.store, if e.raised then ServerError else Redirect("mailapp:mailing_attempts"))
      else if m.status == Started then
        if MayStop(u, m) then (StopInStore(s, m), Redirect("mailapp:mailing_list"))
        else (s, NoHttpResponse)
      else
        assert m.status == Finished;
        (s, NoHttpResponse)
  }

  /** A POST on a Создана mailing runs the orchestrator on it: the ledger
      gains one attempt per recipient, unless the mailing has no message. */
  lemma PostStartsCreated(s: Store, pk: Id, u: User, now: Time, sender: string, send: Transport)
    requires Target(s, pk).Some? && Target(s, pk).value.status == Created
    ensures var m := Target(s, pk).value;
      var r := PostMailingDetail(s, pk, u, now, sender, send);
      && r.0 == StartInStore(s, m, now, sender, send).store
      && (HasStoredMessage(s, m) ==>
            |r.0.attempts| == |s.attempts| + Count(s.recipients, (rc: Recipient) => InMailing(m, rc))
            && r.1 == Redirect("mailapp:mailing_attempts"))
      && (!HasStoredMessage(s, m) ==> r.1 == ServerError)
  {
  }

  /** A POST on a Запущена mailing by a user who may stop it stops it and
      touches nothing else; only a Создана mailing ever reaches the ledger. */
  lemma PostStopsStarted(s: Store, pk: Id, u: User, now: Time, sender: string, send: Transport)
    requires Target(s, pk).Some? && Target(s, pk).value.status != Created
    ensures var m := Target(s, pk).value;
      var r := PostMailingDetail(s, pk, u, now, sender, send);
      && r.0.attempts == s.attempts
      && (m.status == Started && MayStop(u, m) ==> r == (StopInStore(s, m), Redirect("mailapp:mailing_list")))
  {
  }

  /** The fields a user fills in on the recipient form, as the form fields
      hand them on after stripping surrounding whitespace. */
  datatype RecipientInput = RecipientInput(email: string, fullName: string, comment: Option<string>)

  /** Whether the row no recipient may share with `email` is already taken:
      the `unique=True` e-mail column. */
  predicate EmailOnFile(s: Store, email: string)
  {
    exists k :: 0 <= k < |s.recipients| && s.recipients[k].email == email
  }

  /** The recipient create view. `RecipientForm` refuses a blank or too long
      address, one the form field's own address check (`fieldCheck`) or
      `clean_email`'s validator (`validate`) rejects, a blank or too long
      full name, and an address already on file; the form is then shown
      again and nothing is saved. Otherwise `form_valid` saves the row with
      the requesting user as its owner under the new key `pk`. */
  function CreateRecipient(s: Store, pk: Id, input: RecipientInput, u: User,
                           fieldCheck: EmailValidator, validate: EmailValidator): (r: Option<Store>)
    requires IndexOf(s.recipients, RecipientId, pk) == None
    ensures input.email == "" || |input.email| > EmailMaxLength ==> r == None
    ensures fieldCheck(input.email).Some? || validate(input.email).Some? ==> r == None
    ensures input.fullName == "" || |input.fullName| > FullNameMaxLength ==> r == None
    ensures EmailOnFile(s, input.email) ==> r == None
    ensures r == None ==>
      || input.email == "" || |input.email| > EmailMaxLength
      || fieldCheck(input.email).Some? || validate(input.email).Some?
      || input.fullName == "" || |input.fullName| > FullNameMaxLength
      || EmailOnFile(s, input.email)
    ensures r.Some? ==> r.value.recipients == s.recipients + [Recipient(pk, input.email, input.fullName, input.comment, Some(u.id))]
    ensures r.Some? ==> RecipientFits(r.value.recipients[|s.recipients|])
    ensures r.Some? ==> r.value.(recipients := s.recipients) == s
  {
    if input.email == "" || |input.email| > EmailMaxLength || fieldCheck(input.email).Some? then None
    else match CleanEmail(input.email, validate)
      case Failure(_) => None
      case Success(email) =>
        if input.fullName == "" || |input.fullName| > FullNameMaxLength then None
        else if EmailOnFile(s, email) then None
        else Some(s.(recipients := s.recipients + [Recipient(pk, email, input.fullName, input.comment, Some(u.id))]))
  }

  /** Creating recipients keeps both keys of the recipient table unique. */
  lemma CreateRecipientKeepsValid(s: Store, pk: Id, input: RecipientInput, u: User,
                                  fieldCheck: EmailValidator, validate: EmailValidator)
    requires Valid(s)
    requires IndexOf(s.recipients, RecipientId, pk) == None
    ensures var r := CreateRecipient(s, pk, input, u, fieldCheck, validate);
      r.Some? ==> Valid(r.value)
  {
  }

  /** The message create view. `MailMessageForm` refuses a blank or too long
      subject and a blank body; otherwise the template is saved with the
      requesting user as its owner. */
  function CreateMessage(s: Store, pk: Id, subject: string, body: string, u: User): (r: Option<Store>)
    requires IndexOf(s.messages, MessageId, pk) == None
    ensures subject == "" || |subject| > SubjectMaxLength || body == "" ==> r == None
    ensures r == None ==> subject == "" || |subject| > SubjectMaxLength || body == ""
    ensures r.Some? ==> r.value.messages == s.messages + [MailMessage(pk, subject, body, Some(u.id))]
    ensures r.Some? ==> MessageFits(r.value.messages[|s.messages|])
    ensures r.Some? ==> r.value.(messages := s.messages) == s
  {
    if subject == "" || |subject| > SubjectMaxLength then None
    else if body == "" then None
    else Some(s.(messages := s.messages + [MailMessage(pk, subject, body, Some(u.id))]))
  }

  /** Creating a message keeps the message keys unique. */
  lemma CreateMessageKeepsValid(s: Store, pk: Id, subject: string, body: string, u: User)
    requires Valid(s)
    requires IndexOf(s.messages, MessageId, pk) == None
    ensures var r := CreateMessage(s, pk, subject, body, u);
      r.Some? ==> Valid(r.value)
  {
  }

  /** Whether `t` is `s` with exactly one mailing appended, `m`, and nothing
      else changed. */
  predicate AppendsMailing(s: Store, t: Store, m: Mailing)
  {
    t.mailings == s.mailings + [m] && t.(mailings := s.mailings) == s
  }

  /** The mailing create view as written: the form is validated with the
      requesting user's choices, then saved with `commit=False`, stamped
      with the owner and saved. `save_m2m` is never called, so the selected
      recipients are not stored and the new mailing has none. */
  function CreateMailing(s: Store, pk: Id, input: MailingInput, u: User): (r: Option<Store>)
    requires IndexOf(s.mailings, MailingId, pk) == None
    ensures r.Some? <==> Acceptable(s, Some(u), input)
    ensures r.Some? ==> |r.value.mailings| == |s.mailings| + 1
    ensures r.Some? ==> var m := r.value.mailings[|s.mailings|];
      && AppendsMailing(s, r.value, m)
      && m.id == pk && m.owner == Some(u.id) && m.status == Created
      && m.startTime == None && m.endTime == None
      && m.message == input.message && m.frequency == input.frequency
      && m.recipients == {}
      && MailingFits(m)
  {
    match ValidateMailingForm(s, Some(u), input)
    case Failure(_) => None
    case Success(cleaned) =>
      var m := NewMailing(pk, cleaned.message, {}, cleaned.frequency, Some(u.id));
      KeyFitsColumn(m.frequency);
      var t := s.(mailings := s.mailings + [m]);
      assert t.mailings[|s.mailings|] == m;
      Some(t)
  }

  /** As written, an accepted form yields a mailing that can never send: it
      was offered at least one recipient, yet starting it writes no attempt
      and leaves it Создана. */
  lemma CreatedMailingSendsNothing(s: Store, pk: Id, input: MailingInput, u: User,
                                   now: Time, sender: string, send: Transport)
    requires IndexOf(s.mailings, MailingId, pk) == None
    requires Acceptable(s, Some(u), input)
    ensures var t := CreateMailing(s, pk, input, u).value;
      var m := t.mailings[|s.mailings|];
      var e := StartInStore(t, m, now, sender, send);
      && input.recipients != {}
      && m.recipients == {}
      && e.store.attempts == s.attempts
      && e.mailing.status == Created
  {
  }

  /** The mailing create view as evidently intended: the same, but with
      `save_m2m` called, so the new mailing keeps the selected recipients. */
  function CreateMailingWithRecipients(s: Store, pk: Id, input: MailingInput, u: User): (r: Option<Store>)
    requires IndexOf(s.mailings, MailingId, pk) == None
    ensures r.Some? <==> Acceptable(s, Some(u), input)
    ensures r.Some? ==> |r.value.mailings| == |s.mailings| + 1
    ensures r.Some? ==> var m := r.value.mailings[|s.mailings|];
      && AppendsMailing(s, r.value, m)
      && m.id == pk && m.owner == Some(u.id) && m.status == Created
      && m.startTime == None && m.endTime == None
      && m.message == input.message && m.frequency == input.frequency
      && m.recipients == input.recipients
      && MailingFits(m)
  {
    match ValidateMailingForm(s, Some(u), input)
    case Failure(_) => None
    case Success(cleaned) =>
      var m := NewMailing(pk, cleaned.message, cleaned.recipients, cleaned.frequency, Some(u.id));
      KeyFitsColumn(m.frequency);
      var t := s.(mailings := s.mailings + [m]);
      assert t.mailings[|s.mailings|] == m;
      Some(t)
  }

  /** An accepted mailing form selects at least one stored recipient and,
      when it names a message, a stored message. */
  lemma AcceptedFormSelectsStoredRows(s: Store, u: User, input: MailingInput)
    requires Acceptable(s, Some(u), input)
    ensures exists k :: 0 <= k < |s.recipients| && s.recipients[k].id in input.recipients
    ensures input.message.Some? ==> exists k :: 0 <= k < |s.messages| && s.messages[k].id == input.message.value
  {
  }

  /** With the recipients kept, a mailing created with a message sends: a
      start does not raise and writes one attempt per selected recipient,
      at least one. */
  lemma CreatedMailingWithRecipientsSends(s: Store, pk: Id, input: MailingInput, u: User,
                                          now: Time, sender: string, send: Transport)
    requires IndexOf(s.mailings, MailingId, pk) == None
    requires Acceptable(s, Some(u), input)
    requires input.message.Some?
    ensures var t := CreateMailingWithRecipients(s, pk, input, u).value;
      var m := t.mailings[|s.mailings|];
      var e := StartInStore(t, m, now, sender, send);
      && !e.raised
      && |e.store.attempts| == |s.attempts| + Count(t.recipients, (rc: Recipient) => InMailing(m, rc))
      && |e.store.attempts| > |s.attempts|
  {
  }
}

=== FILE: models.dfy ===
/** The mailing application's tables: recipients, message templates,
    mailings and the ledger of delivery attempts, with the enumerations,
    defaults and column constraints their model classes declare. */
module Models {
  import opened Common
  import opened Accounts

  /** The three values of `Mailing.status` offered by its choices. */
  datatype MailingStatus = Created | Started | Finished

  /** The stored (and displayed) text of a mailing status. */
  function StatusLabel(s: MailingStatus): string
  {
    match s
    case Created => "Создана"
    case Started => "Запущена"
    case Finished => "Завершена"
  }

  /** The status whose stored text is `t`, if any. */
  function ParseStatus(t: string): (r: Option<MailingStatus>)
    ensures r.Some? ==> StatusLabel(r.value) == t
    ensures r.None? ==> forall s: MailingStatus :: StatusLabel(s) != t
  {
    if t == "Создана" then Some(Created)
    else if t == "Запущена" then Some(Started)
    else if t == "Завершена" then Some(Finished)
    else None
  }

  /** Status labels are pairwise distinct, so a stored status names exactly
      one of the three values. */
  lemma StatusLabelRoundTrip(s: MailingStatus)
    ensures ParseStatus(StatusLabel(s)) == Some(s)
  {
  }

  /** The two values of `MailingAttempt.status`. */
  datatype AttemptStatus = Successfully | Unsuccessfully

  /** The stored text of an attempt status, which the ledger totals filter on. */
  function AttemptStatusLabel(s: AttemptStatus): string
  {
    match s
    case Successfully => "Успешно"
    case Unsuccessfully => "Не успешно"
  }

  /** The four frequencies of `Mailing.frequency`. */
  datatype Frequency = Minutely | Daily | Weekly | Monthly

  /** The value a choice stores in the column. */
  function FrequencyKey(f: Frequency): string
  {
    match f
    case Minutely => "MINUTLY"
    case Daily => "DAILY"
    case Weekly => "WEEKLY"
    case Monthly => "MONTHLY"
  }

  /** The human-readable text a choice displays. */
  function FrequencyLabel(f: Frequency): string
  {
    match f
    case Minutely => "раз в минуту"
    case Daily => "раз в день"
    case Weekly => "раз в неделю"
    case Monthly => "раз в месяц"
  }

  /** Whether `t` is one of the stored keys the column's choices allow. */
  predicate IsFrequencyKey(t: string)
  {
    t in {FrequencyKey(Minutely), FrequencyKey(Daily), FrequencyKey(Weekly), FrequencyKey(Monthly)}
  }

  /** The stored keys are exactly the keys of the frequencies. */
  lemma FrequencyKeyIff(t: string)
    ensures IsFrequencyKey(t) <==> exists f: Frequency :: FrequencyKey(f) == t
  {
    if IsFrequencyKey(t) {
      var f := if t == FrequencyKey(Minutely) then Minutely
        else if t == FrequencyKey(Daily) then Daily
        else if t == FrequencyKey(Weekly) then Weekly
        else Monthly;
      assert FrequencyKey(f) == t;
    } else {
      forall f: Frequency ensures FrequencyKey(f) != t {
        match f
        case Minutely =>
        case Daily =>
        case Weekly =>
        case Monthly =>
      }
    }
  }

  /** No display label of a frequency is also a stored key of one: a column
      written with a label holds a value outside its own choices. */
  lemma LabelIsNeverKey(f: Frequency)
    ensures !IsFrequencyKey(FrequencyLabel(f))
    ensures IsFrequencyKey(FrequencyKey(f))
  {
  }

  /** A mailing-list contact. */
  datatype Recipient = Recipient(id: Id, email: string, fullName: string, comment: Option<string>, owner: Option<Id>)

  /** A subject/body template. */
  datatype MailMessage = MailMessage(id: Id, subject: string, body: string, owner: Option<Id>)

  /** A campaign: one (nullable) message, a set of recipients (the
      many-to-many relation), timing, status and frequency. `frequency` is
      the raw column text, because not every writer stores a choice key. */
  datatype Mailing = Mailing(
    id: Id,
    startTime: Option<Time>,
    endTime: Option<Time>,
    status: MailingStatus,
    message: Option<Id>,
    recipients: set<Id>,
    frequency: string,
    owner: Option<Id>)

  /** One row of the delivery ledger. It names its mailing but not the
      recipient it was sent to. */
  datatype Attempt = Attempt(status: AttemptStatus, response: Option<string>, mailing: Id, owner: Option<Id>)

  /** A mailing as first saved: status Создана and both times null. */
  function NewMailing(id: Id, message: Option<Id>, recipients: set<Id>, frequency: string, owner: Option<Id>): (m: Mailing)
    ensures m.status == Created && m.startTime == None && m.endTime == None
    ensures m.id == id && m.message == message && m.recipients == recipients
    ensures m.frequency == frequency && m.owner == owner
  {
    Mailing(id, None, None, Created, message, recipients, frequency, owner)
  }

  /** Column length limits declared by the model classes. */
  const EmailMaxLength := 100
  const FullNameMaxLength := 100
  const SubjectMaxLength := 200
  const StatusMaxLength := 15
  const FrequencyMaxLength := 20

  predicate RecipientFits(r: Recipient)
  {
    |r.email| <= EmailMaxLength && |r.fullName| <= FullNameMaxLength
  }

  predicate MessageFits(m: MailMessage)
  {
    |m.subject| <= SubjectMaxLength
  }

  predicate MailingFits(m: Mailing)
  {
    |StatusLabel(m.status)| <= StatusMaxLength && |m.frequency| <= FrequencyMaxLength
  }

  /** Every value either writer may put in `frequency` fits its column. */
  lemma FrequencyValuesFit(f: Frequency)
    ensures |FrequencyKey(f)| <= FrequencyMaxLength && |FrequencyLabel(f)| <= FrequencyMaxLength
  {
  }

  /** A stored frequency key fits the 20-character column. */
  lemma KeyFitsColumn(t: string)
    requires IsFrequencyKey(t)
    ensures |t| <= FrequencyMaxLength
  {
  }

  function RecipientId(r: Recipient): Id { r.id }
  function RecipientEmail(r: Recipient): string { r.email }
  function MessageId(m: MailMessage): Id { m.id }
  function MailingId(m: Mailing): Id { m.id }
  function UserId(u: User): Id { u.id }

  /** The whole database: one sequence per table, each in the table's
      default ordering. */
  datatype Store = Store(
    users: seq<User>,
    recipients: seq<Recipient>,
    messages: seq<MailMessage>,
    mailings: seq<Mailing>,
    attempts: seq<Attempt>)

  /** The integrity constraints the schema enforces: primary keys, the
      unique recipient e-mail, and the non-null foreign key from every
      attempt to an existing mailing. */
  ghost predicate Valid(s: Store)
  {
    && UniqueKeys(s.users, UserId)
    && UniqueKeys(s.recipients, RecipientId)
    && UniqueKeys(s.recipients, RecipientEmail)
    && UniqueKeys(s.messages, MessageId)
    && UniqueKeys(s.mailings, MailingId)
    && (forall i :: 0 <= i < |s.attempts| ==> IndexOf(s.mailings, MailingId, s.attempts[i].mailing).Some?)
  }

  /** The owner of the mailing with key `id`, as `mailing__owner` joins it. */
  function MailingOwner(mailings: seq<Mailing>, id: Id): (r: Option<Id>)
    ensures r.Some? ==> exists k :: 0 <= k < |mailings| && mailings[k].id == id && mailings[k].owner == r
    ensures (forall k :: 0 <= k < |mailings| ==> mailings[k].id != id) ==> r == None
    ensures UniqueKeys(mailings, MailingId) ==>
      forall k :: 0 <= k < |mailings| && mailings[k].id == id ==> r == mailings[k].owner
  {
    match IndexOf(mailings, MailingId, id)
    case None => None
    case Some(k) => mailings[k].owner
  }

  /** `save()` of a mailing object: an UPDATE of the row with its key, or an
      INSERT when no such row exists. */
  function SaveMailing(mailings: seq<Mailing>, m: Mailing): (r: seq<Mailing>)
    ensures m in r
    ensures IndexOf(mailings, MailingId, m.id).Some? ==> |r| == |mailings|
    ensures IndexOf(mailings, MailingId, m.id).None? ==> r == mailings + [m]
    ensures forall i :: 0 <= i < |mailings| && mailings[i].id != m.id ==> mailings[i] in r
    ensures forall x :: x in r ==> x == m || x in mailings
  {
    match IndexOf(mailings, MailingId, m.id)
    case None => mailings + [m]
    case Some(k) =>
      var r := mailings[k := m];
      assert r[k] == m;
      assert forall i :: 0 <= i < |mailings| && i != k ==> r[i] == mailings[i];
      r
  }

  /** Saving an existing mailing rewrites its row in place: the keys of all
      rows stay where they were. */
  lemma SaveKeepsKeys(mailings: seq<Mailing>, m: Mailing)
    requires IndexOf(mailings, MailingId, m.id).Some?
    ensures |SaveMailing(mailings, m)| == |mailings|
    ensures forall i :: 0 <= i < |mailings| ==> SaveMailing(mailings, m)[i].id == mailings[i].id
  {
  }
}

=== FILE: services.dfy ===
/** The mailing orchestrator: `start_mailing` stamps the mailing's times,
    sends the message to every recipient one by one through the mail
    transport and appends one attempt per recipient to the ledger;
    `stop_mailing` marks the mailing finished. */
module MailingService {
  import opened Common
  import opened Models

  /** What one call of `send_mail` did: it returned the number of messages
      sent, or raised an `SMTPException`, or raised some other exception.
      `detail` is the text `str(e)` of the exception. */
  datatype SendOutcome = Returned(count: nat) | SmtpFailure(detail: string) | OtherFailure(detail: string)

  /** The mail transport, as the outcome it gives for each letter. */
  type Transport = Letter -> SendOutcome

  const SuccessResponse := "Успешно"
  const NothingSentResponse := "Ошибка"
  const UnexpectedErrorPrefix := "Неожиданная ошибка: "

  /** The ledger row written for one send outcome. */
  function RecordAttempt(mailing: Id, o: SendOutcome): (a: Attempt)
    ensures a.mailing == mailing && a.owner == None
    ensures a.status == Successfully <==> o.Returned? && o.count > 0
    ensures o.Returned? ==> a.response == Some(if o.count > 0 then SuccessResponse else NothingSentResponse)
    ensures o.SmtpFailure? ==> a.response == Some(o.detail)
    ensures o.OtherFailure? ==> a.response == Some(UnexpectedErrorPrefix + o.detail)
  {
    match o
    case Returned(n) =>
      if n > 0 then Attempt(Successfully, Some(SuccessResponse), mailing, None)
      else Attempt(Unsuccessfully, Some(NothingSentResponse), mailing, None)
    case SmtpFailure(e) => Attempt(Unsuccessfully, Some(e), mailing, None)
    case OtherFailure(e) => Attempt(Unsuccessfully, Some(UnexpectedErrorPrefix + e), mailing, None)
  }

  /** The single-recipient letter sent to `to`. */
  function LetterTo(subject: string, body: string, sender: string, to: string): Letter
  {
    Letter(subject, body, sender, [to])
  }

  /** Whether the transport returned normally (with any count) for at least
      one recipient of the list. */
  ghost predicate SomeSendReturned(subject: string, body: string, sender: string, recipients: seq<string>, send: Transport)
  {
    exists i :: 0 <= i < |recipients| && send(LetterTo(subject, body, sender, recipients[i])).Returned?
  }

  /** The state the send loop leaves behind: the mailing's status and, in
      order, the attempts written and the letters handed to the transport. */
  datatype LoopResult = LoopResult(status: MailingStatus, attempts: seq<Attempt>, letters: seq<Letter>)

  /** The `for recipient in recipients` loop, as a fold from the left. */
  function SendLoop(mailing: Id, status: MailingStatus, subject: string, body: string, sender: string,
                    recipients: seq<string>, send: Transport): (r: LoopResult)
    ensures |r.attempts| == |recipients| && |r.letters| == |recipients|
    ensures forall i :: 0 <= i < |recipients| ==> r.letters[i] == LetterTo(subject, body, sender, recipients[i])
    ensures forall i :: 0 <= i < |recipients| ==> r.attempts[i] == RecordAttempt(mailing, send(r.letters[i]))
    ensures SomeSendReturned(subject, body, sender, recipients, send) ==> r.status == Started
    ensures !SomeSendReturned(subject, body, sender, recipients, send) ==> r.status == status
    decreases |recipients|
  {
    if recipients == [] then LoopResult(status, [], [])
    else
      var letter := LetterTo(subject, body, sender, recipients[0]);
      var outcome := send(letter);
      var rest := SendLoop(mailing, if outcome.Returned? then Started else status,
                           subject, body, sender, recipients[1..], send);
      var r := LoopResult(rest.status, [RecordAttempt(mailing, outcome)] + rest.attempts, [letter] + rest.letters);
      assert forall i :: 1 <= i < |recipients| ==> recipients[i] == recipients[1..][i - 1];
      assert forall i :: 1 <= i < |recipients| ==> r.letters[i] == rest.letters[i - 1];
      assert forall i :: 1 <= i < |recipients| ==> r.attempts[i] == rest.attempts[i - 1];
      StatusStep(subject, body, sender, recipients, send);
      r
  }

  /** Some call returned for a non-empty list iff it returned for the first
      recipient or for some later one. */
  lemma StatusStep(subject: string, body: string, sender: string, recipients: seq<string>, send: Transport)
    requires recipients != []
    ensures SomeSendReturned(subject, body, sender, recipients, send) <==>
      send(LetterTo(subject, body, sender, recipients[0])).Returned? ||
      SomeSendReturned(subject, body, sender, recipients[1..], send)
  {
  }

  /** What `start_mailing` leaves: either the loop ran, or reading the
      message of a mailing without one raised after the times were saved. */
  datatype StartOutcome =
    | Ran(mailing: Mailing, attempts: seq<Attempt>, letters: seq<Letter>)
    | Aborted(mailing: Mailing)

  /** `start_mailing` on the mailing object `m` whose message row is
      `message` and whose recipients' addresses are `recipients`, at clock
      reading `now`, sending from `sender`. */
  function StartMailing(m: Mailing, message: Option<MailMessage>, recipients: seq<string>,
                        now: Time, sender: string, send: Transport): (r: StartOutcome)
    ensures r.mailing.startTime == (if m.startTime == None then Some(now) else m.startTime)
    ensures r.mailing.endTime == Some(now)
    ensures r.mailing.(startTime := m.startTime, endTime := m.endTime, status := m.status) == m
    ensures r.Aborted? <==> message == None
    ensures r.Aborted? ==> r.mailing.status == m.status
    ensures r.Ran? ==> |r.attempts| == |recipients| && |r.letters| == |recipients|
    ensures r.Ran? ==> forall i :: 0 <= i < |recipients| ==>
      && r.letters[i] == LetterTo(message.value.subject, message.value.body, sender, recipients[i])
      && r.attempts[i] == RecordAttempt(m.id, send(r.letters[i]))
    ensures r.Ran? ==> (r.mailing.status == Started <==>
      m.status == Started || SomeSendReturned(message.value.subject, message.value.body, sender, recipients, send))
    ensures r.Ran? ==> (r.mailing.status == m.status ||
      SomeSendReturned(message.value.subject, message.value.body, sender, recipients, send))
  {
    var timed := m.(startTime := if m.startTime == None then Some(now) else m.startTime,
                    endTime := Some(now));
    match message
    case None => Aborted(timed)
    case Some(msg) =>
      var loop := SendLoop(m.id, m.status, msg.subject, msg.body, sender, recipients, send);
      Ran(timed.(status := loop.status), loop.attempts, loop.letters)
  }

  /** `stop_mailing`: the status becomes Завершена whatever it was. */
  function StopMailing(m: Mailing): (r: Mailing)
    ensures r.status == Finished
    ensures r.(status := m.status) == m
  {
    m.(status := Finished)
  }

  /** Stopping twice is stopping once. */
  lemma StopIdempotent(m: Mailing)
    ensures StopMailing(StopMailing(m)) == StopMailing(m)
  {
  }

  /** Whether `rc` is one of the mailing's recipients. */
  predicate InMailing(m: Mailing, rc: Recipient)
  {
    rc.id in m.recipients
  }

  /** The addresses of the mailing's recipients, in table order:
      `[r.email for r in mailing.recipients.all()]`. Every address belongs to
      a recipient of the mailing, every recipient of the mailing contributes
      its address, and there is one address per such recipient. */
  function RecipientEmails(s: Store, m: Mailing): (r: seq<string>)
    ensures |r| == Count(s.recipients, (rc: Recipient) => InMailing(m, rc))
    ensures forall i :: 0 <= i < |r| ==>
      exists k :: 0 <= k < |s.recipients| && InMailing(m, s.recipients[k]) && s.recipients[k].email == r[i]
    ensures forall k :: 0 <= k < |s.recipients| && InMailing(m, s.recipients[k]) ==> s.recipients[k].email in r
  {
    var chosen := Filter(s.recipients, (rc: Recipient) => InMailing(m, rc));
    var r := seq(|chosen|, i requires 0 <= i < |chosen| => chosen[i].email);
    assert forall i :: 0 <= i < |r| ==>
      exists k :: 0 <= k < |s.recipients| && InMailing(m, s.recipients[k]) && s.recipients[k].email == r[i] by {
      forall i | 0 <= i < |r|
        ensures exists k :: 0 <= k < |s.recipients| && InMailing(m, s.recipients[k]) && s.recipients[k].email == r[i]
      {
        assert chosen[i] in s.recipients && InMailing(m, chosen[i]);
        var k :| 0 <= k < |s.recipients| && s.recipients[k] == chosen[i];
        assert s.recipients[k].email == r[i];
      }
    }
    assert forall k :: 0 <= k < |s.recipients| && InMailing(m, s.recipients[k]) ==> s.recipients[k].email in r by {
      forall k | 0 <= k < |s.recipients| && InMailing(m, s.recipients[k])
        ensures s.recipients[k].email in r
      {
        assert s.recipients[k] in chosen;
        var i :| 0 <= i < |chosen| && chosen[i] == s.recipients[k];
        assert r[i] == s.recipients[k].email;
      }
    }
    r
  }

  /** Whether the mailing's message column names a stored message. */
  predicate HasStoredMessage(s: Store, m: Mailing)
  {
    m.message.Some? && exists k :: 0 <= k < |s.messages| && s.messages[k].id == m.message.value
  }

  /** The message row `mailing.message` refers to: found exactly when the
      column is set and a row has that key. */
  function MessageOf(s: Store, m: Mailing): (r: Option<MailMessage>)
    ensures r.Some? ==> r.value in s.messages && m.message == Some(r.value.id)
    ensures r.Some? <==> HasStoredMessage(s, m)
  {
    match m.message
    case None => None
    case Some(id) =>
      match IndexOf(s.messages, MessageId, id)
      case None => None
      case Some(k) => Some(s.messages[k])
  }

  /** The ledger rows one run writes, one per letter, each recording what
      the transport did with that letter for that mailing. */
  function Ledger(mailing: Id, letters: seq<Letter>, send: Transport): (r: seq<Attempt>)
    ensures |r| == |letters|
    ensures forall i :: 0 <= i < |r| ==> r[i] == RecordAttempt(mailing, send(letters[i]))
    ensures forall i :: 0 <= i < |r| ==> r[i].mailing == mailing && r[i].owner == None
  {
    seq(|letters|, i requires 0 <= i < |letters| => RecordAttempt(mailing, send(letters[i])))
  }

  /** The database after `start_mailing`, the mailing as last saved, whether
      the call raised, and the letters handed to the transport. */
  datatype StoreEffect = StoreEffect(store: Store, mailing: Mailing, raised: bool, letters: seq<Letter>)

  /** `start_mailing` against the database for a mailing whose message row
      is `msg`: the mailing is saved with its new times and status, one
      letter goes to each of its recipients' addresses, and the ledger gains
      one row per letter. */
  function RunInStore(s: Store, m: Mailing, msg: MailMessage, now: Time, sender: string, send: Transport): (r: StoreEffect)
    requires MessageOf(s, m) == Some(msg)
    ensures !r.raised
    ensures r.store.(mailings := s.mailings, attempts := s.attempts) == s
    ensures r.store.mailings == SaveMailing(s.mailings, r.mailing)
    ensures r.mailing.(startTime := m.startTime, endTime := m.endTime, status := m.status) == m
    ensures r.mailing.endTime == Some(now)
    ensures r.mailing.startTime == (if m.startTime == None then Some(now) else m.startTime)
    ensures r.mailing.status == Started <==>
      (m.status == Started || SomeSendReturned(msg.subject, msg.body, sender, RecipientEmails(s, m), send))
    ensures r.mailing.status == m.status || SomeSendReturned(msg.subject, msg.body, sender, RecipientEmails(s, m), send)
    ensures |r.letters| == |RecipientEmails(s, m)|
    ensures forall i :: 0 <= i < |r.letters| ==> r.letters[i] == LetterTo(msg.subject, msg.body, sender, RecipientEmails(s, m)[i])
    ensures r.store.attempts == s.attempts + Ledger(m.id, r.letters, send)
  {
    var o := StartMailing(m, Some(msg), RecipientEmails(s, m), now, sender, send);
    assert o.Ran?;
    assert o.attempts == Ledger(m.id, o.letters, send);
    StoreEffect(s.(mailings := SaveMailing(s.mailings, o.mailing), attempts := s.attempts + o.attempts),
                o.mailing, false, o.letters)
  }

  /** `start_mailing` against the database: the mailing object `m` is saved
      with its new times; reading a missing message raises after that save,
      with nothing sent; otherwise the run of `RunInStore` happens, one
      ledger row per recipient of the mailing. */
  function StartInStore(s: Store, m: Mailing, now: Time, sender: string, send: Transport): (r: StoreEffect)
    ensures r.store.(mailings := s.mailings, attempts := s.attempts) == s
    ensures r.store.mailings == SaveMailing(s.mailings, r.mailing)
    ensures r.mailing.id == m.id && r.mailing.endTime == Some(now)
    ensures r.mailing.startTime == (if m.startTime == None then Some(now) else m.startTime)
    ensures r.raised <==> !HasStoredMessage(s, m)
    ensures r.raised ==> r.mailing.status == m.status && r.store.attempts == s.attempts && r.letters == []
    ensures !r.raised ==> r == RunInStore(s, m, MessageOf(s, m).value, now, sender, send)
    ensures !r.raised ==> |r.store.attempts| == |s.attempts| + Count(s.recipients, (rc: Recipient) => InMailing(m, rc))
  {
    match MessageOf(s, m)
    case None =>
      var saved := StartMailing(m, None, RecipientEmails(s, m), now, sender, send).mailing;
      StoreEffect(s.(mailings := SaveMailing(s.mailings, saved)), saved, true, [])
    case Some(msg) => RunInStore(s, m, msg, now, sender, send)
  }

  /** Starting a mailing that is in the table keeps every integrity
      constraint: keys are untouched and every new attempt refers to that
      mailing. */
  lemma StartKeepsStoreValid(s: Store, m: Mailing, now: Time, sender: string, send: Transport)
    requires Valid(s)
    requires IndexOf(s.mailings, MailingId, m.id).Some?
    ensures Valid(StartInStore(s, m, now, sender, send).store)
  {
  }

  predicate IsSuccessful(a: Attempt)
  {
    a.status == Successfully
  }

  predicate IsUnsuccessful(a: Attempt)
  {
    a.status == Unsuccessfully
  }

  /** Whether the transport reported at least one message sent. */
  predicate Delivered(o: SendOutcome)
  {
    o.Returned? && o.count > 0
  }

  /** The successful attempts of one loop are exactly the letters the
      transport reported delivered. */
  lemma {:induction false} LoopSuccesses(mailing: Id, status: MailingStatus, subject: string, body: string, sender: string,
                                          recipients: seq<string>, send: Transport)
    ensures var r := SendLoop(mailing, status, subject, body, sender, recipients, send);
      Count(r.attempts, IsSuccessful) == Count(r.letters, (l: Letter) => Delivered(send(l)))
  {
    var r := SendLoop(mailing, status, subject, body, sender, recipients, send);
    CountPointwise(r.attempts, IsSuccessful, r.letters, (l: Letter) => Delivered(send(l)));
  }

  /** Every attempt of one loop is either successful or not, so the two
      tallies add up to the number of recipients. */
  lemma {:induction false} LoopTally(mailing: Id, status: MailingStatus, subject: string, body: string, sender: string,
                                      recipients: seq<string>, send: Transport)
    ensures var r := SendLoop(mailing, status, subject, body, sender, recipients, send);
      Count(r.attempts, IsSuccessful) + Count(r.attempts, IsUnsuccessful) == |recipients|
  {
    var r := SendLoop(mailing, status, subject, body, sender, recipients, send);
    CountComplement(r.attempts, IsSuccessful, IsUnsuccessful);
  }

  /** A second run keeps the start time the first run set, and moves the end
      time to the second clock reading. */
  lemma RerunKeepsFirstStart(m: Mailing, message: Option<MailMessage>, recipients: seq<string>,
                             t1: Time, t2: Time, sender: string, send1: Transport, send2: Transport)
    ensures var first := StartMailing(m, message, recipients, t1, sender, send1).mailing;
      var second := StartMailing(first, message, recipients, t2, sender, send2).mailing;
      && second.startTime == (if m.startTime == None then Some(t1) else m.startTime)
      && second.endTime == Some(t2)
  {
  }

  /** Two recipients, the first accepted (count 1) and the second refused by
      the SMTP server: one success row, one failure row carrying the server's
      text, and the mailing is started. */
  lemma TwoRecipientScenario(m: Mailing, message: MailMessage, now: Time, sender: string, send: Transport)
    requires m.status == Created
    requires send(LetterTo(message.subject, message.body, sender, "a@x.com")) == Returned(1)
    requires send(LetterTo(message.subject, message.body, sender, "b@x.com")) == SmtpFailure("connection refused")
    ensures var r := StartMailing(m, Some(message), ["a@x.com", "b@x.com"], now, sender, send);
      && r.attempts == [Attempt(Successfully, Some("Успешно"), m.id, None),
                        Attempt(Unsuccessfully, Some("connection refused"), m.id, None)]
      && r.mailing.status == Started
      && r.mailing.endTime == Some(now)
  {
  }

  /** A mailing without recipients writes no attempt, keeps its status, and
      still has its end time moved. */
  lemma NoRecipientScenario(m: Mailing, message: MailMessage, now: Time, sender: string, send: Transport)
    ensures var r := StartMailing(m, Some(message), [], now, sender, send);
      r.attempts == [] && r.letters == [] && r.mailing.status == m.status && r.mailing.endTime == Some(now)
  {
  }

  /** Stopping in the database rewrites only that mailing's status. */
  function StopInStore(s: Store, m: Mailing): (r: Store)
    ensures r.(mailings := s.mailings) == s
    ensures r.mailings == SaveMailing(s.mailings, StopMailing(m))
    ensures StopMailing(m) in r.mailings
    ensures IndexOf(s.mailings, MailingId, m.id).Some? ==> |r.mailings| == |s.mailings|
    ensures forall i :: 0 <= i < |s.mailings| && s.mailings[i].id != m.id ==> s.mailings[i] in r.mailings
  {
    s.(mailings := SaveMailing(s.mailings, StopMailing(m)))
  }
}

=== FILE: usermail.dfy ===
/** The account-verification mail: the token is stored on the user and
    embedded in a link whose path the verification route parses back. */
module VerificationMail {
  import opened Common
  import opened Accounts

  const VerifyPrefix := "/users/verify/"
  const VerificationSubject := "Подтверждение аккаунта"
  const VerificationIntro := "Пожалуйста, перейдите по ссылке, чтобы подтвердить ваш аккаунт: "

  /** The alphabet of URL-safe base64, which the random token source draws
      from. */
  predicate UrlSafeChar(c: char)
  {
    ('A' <= c <= 'Z') || ('a' <= c <= 'z') || ('0' <= c <= '9') || c == '-' || c == '_'
  }

  predicate UrlSafe(token: string)
  {
    forall i :: 0 <= i < |token| ==> UrlSafeChar(token[i])
  }

  /** The path of the verification link for `token`. */
  function VerifyPath(token: string): (p: string)
    ensures |p| == |VerifyPrefix| + |token| + 1
    ensures p[..|VerifyPrefix|] == VerifyPrefix && p[|p| - 1] == '/'
    ensures p[|VerifyPrefix|..|p| - 1] == token
  {
    VerifyPrefix + token + "/"
  }

  /** The link mailed to the user: `http://`, the request's host, then the
      verification path. */
  function VerificationUrl(host: string, token: string): (url: string)
    ensures |url| == 7 + |host| + |VerifyPath(token)|
    ensures url[..7] == "http://"
    ensures url[7..7 + |host|] == host
    ensures url[7 + |host|..] == VerifyPath(token)
  {
    "http://" + host + VerifyPath(token)
  }

  /** The mail sent on registration and the user as saved before it is sent. */
  datatype Verification = Verification(user: User, letter: Letter)

  /** `send_verification_email` with `token` drawn from the random source:
      the token is stored on the user, and one letter with the fixed subject
      and a body ending in the link goes to the user's own address only. */
  function SendVerificationEmail(u: User, host: string, token: string, sender: string): (r: Verification)
    ensures r.user == u.(verificationToken := Some(token))
    ensures r.letter.subject == VerificationSubject
    ensures r.letter.body == VerificationIntro + VerificationUrl(host, token)
    ensures r.letter.to == [u.email] && r.letter.sender == sender
  {
    Verification(u.(verificationToken := Some(token)),
                 Letter(VerificationSubject, VerificationIntro + VerificationUrl(host, token), sender, [u.email]))
  }

  /** Whether `s` contains the character `c`. */
  function HasChar(s: string, c: char): (r: bool)
    ensures r <==> exists i :: 0 <= i < |s| && s[i] == c
  {
    if s == [] then false else s[0] == c || HasChar(s[1..], c)
  }

  /** The route `verify/<str:verification_token>/` under `/users/`: the
      segment between the prefix and the final slash, which must be
      non-empty and slash-free. */
  function ParseVerifyPath(path: string): (r: Option<string>)
    ensures r.Some? ==> path == VerifyPath(r.value) && r.value != [] && !HasChar(r.value, '/')
  {
    if |path| > |VerifyPrefix| && path[..|VerifyPrefix|] == VerifyPrefix && path[|path| - 1] == '/' then
      var segment := path[|VerifyPrefix|..|path| - 1];
      if segment != [] && !HasChar(segment, '/') then
        assert path == path[..|VerifyPrefix|] + path[|VerifyPrefix|..|path| - 1] + [path[|path| - 1]];
        Some(segment)
      else None
    else None
  }

  /** The route recovers exactly the token the link was built from, for any
      non-empty URL-safe token. */
  lemma VerifyPathRoundTrip(token: string)
    requires token != [] && UrlSafe(token)
    ensures ParseVerifyPath(VerifyPath(token)) == Some(token)
  {
  }
}

=== FILE: userviews.dfy ===
/** The account views: registration, e-mail verification by token, the
    user list, and the choice of profile-edit form. */
module UserViews {
  import opened Common
  import opened Accounts
  import opened VerificationMail

  /** How a verification request ends: a redirect to the login page, a 404
      when no user holds the token, or a server error when several do (the
      token column is not unique). */
  datatype VerifyResponse = RedirectToLogin | NotFound | MultipleUsers

  /** Whether `u` holds the verification token `token`. */
  predicate HoldsToken(u: User, token: string)
  {
    u.verificationToken == Some(token)
  }

  /** `email_verification`: the one user holding the token is activated. */
  function EmailVerification(users: seq<User>, token: string): (r: (seq<User>, VerifyResponse))
    ensures |r.0| == |users|
    ensures r.1 == NotFound <==> forall i :: 0 <= i < |users| ==> !HoldsToken(users[i], token)
    ensures r.1 == MultipleUsers <==> Count(users, (u: User) => HoldsToken(u, token)) > 1
    ensures r.1 != RedirectToLogin ==> r.0 == users
    ensures r.1 == RedirectToLogin ==> forall i :: 0 <= i < |users| ==>
      r.0[i] == if HoldsToken(users[i], token) then users[i].(isActive := true) else users[i]
  {
    var holders := Filter(users, (u: User) => HoldsToken(u, token));
    FilterEmptyIff(users, (u: User) => HoldsToken(u, token));
    if |holders| == 0 then (users, NotFound)
    else if |holders| > 1 then (users, MultipleUsers)
    else
      var k := FirstHolder(users, token);
      (users[k := users[k].(isActive := true)], RedirectToLogin)
  }

  /** The position of the first user holding the token; when exactly one
      does, it is the only one. */
  function FirstHolder(users: seq<User>, token: string): (k: nat)
    requires Count(users, (u: User) => HoldsToken(u, token)) == 1
    ensures k < |users| && HoldsToken(users[k], token)
    ensures forall i :: 0 <= i < |users| && i != k ==> !HoldsToken(users[i], token)
    decreases |users|
  {
    if HoldsToken(users[0], token) then
      assert Count(users[1..], (u: User) => HoldsToken(u, token)) == 0;
      assert forall i :: 1 <= i < |users| ==> users[i] == users[1..][i - 1];
      FilterEmptyIff(users[1..], (u: User) => HoldsToken(u, token));
      0
    else
      assert forall i :: 1 <= i < |users| ==> users[i] == users[1..][i - 1];
      1 + FirstHolder(users[1..], token)
  }

  /** The token is not cleared, so a second visit of the same link finds the
      same user and leaves the table as the first visit left it. */
  lemma VerificationIdempotent(users: seq<User>, token: string)
    ensures var once := EmailVerification(users, token);
      EmailVerification(once.0, token) == (once.0, once.1)
  {
    var once := EmailVerification(users, token);
    if once.1 == RedirectToLogin {
      CountPointwise(users, (u: User) => HoldsToken(u, token), once.0, (u: User) => HoldsToken(u, token));
      var k := FirstHolder(users, token);
      var twice := EmailVerification(once.0, token);
      var k2 := FirstHolder(once.0, token);
      assert k2 == k;
      assert twice.0 == once.0;
    }
  }

  /** `UserCreateView.form_valid` with `saved` the row the registration form
      inserted: the user is left inactive, holding the token, and the
      verification letter is sent. */
  function Register(users: seq<User>, saved: User, host: string, token: string, sender: string): (r: (seq<User>, Letter))
    requires forall i :: 0 <= i < |users| ==> users[i].id != saved.id
    ensures |r.0| == |users| + 1 && r.0[..|users|] == users
    ensures r.0[|users|] == saved.(isActive := false, verificationToken := Some(token))
    ensures r.1 == SendVerificationEmail(saved, host, token, sender).letter
  {
    var v := SendVerificationEmail(saved.(isActive := false), host, token, sender);
    var t := users + [v.user];
    assert t[..|users|] == users;
    (t, v.letter)
  }

  /** Registering and then following the mailed link activates the new user
      and nobody else, provided no existing user holds the fresh token. */
  lemma {:induction false} RegisterThenVerify(users: seq<User>, saved: User, host: string, token: string, sender: string)
    requires forall i :: 0 <= i < |users| ==> users[i].id != saved.id
    requires forall i :: 0 <= i < |users| ==> !HoldsToken(users[i], token)
    requires token != [] && UrlSafe(token)
    ensures var reg := Register(users, saved, host, token, sender);
      var path := ParseVerifyPath(VerifyPath(token));
      && path == Some(token)
      && EmailVerification(reg.0, path.value).1 == RedirectToLogin
      && EmailVerification(reg.0, path.value).0 == users + [reg.0[|users|].(isActive := true)]
  {
    VerifyPathRoundTrip(token);
    var reg := Register(users, saved, host, token, sender);
    var p := (u: User) => HoldsToken(u, token);
    FilterAppend(users, [reg.0[|users|]], p);
    assert reg.0 == users + [reg.0[|users|]];
    FilterEmptyIff(users, p);
    assert Count(reg.0, p) == 1;
    var after := EmailVerification(reg.0, token);
    assert after.0 == users + [reg.0[|users|].(isActive := true)];
  }

  /** The user list: the non-staff accounts, in table order. */
  function UsersList(users: seq<User>): (r: seq<User>)
    ensures forall i :: 0 <= i < |r| ==> r[i] in users && !r[i].isStaff
    ensures forall i :: 0 <= i < |users| && !users[i].isStaff ==> users[i] in r
    ensures multiset(r) <= multiset(users)
    ensures forall i :: 0 <= i < |users| && !users[i].isStaff ==> multiset(r)[users[i]] == multiset(users)[users[i]]
  {
    FilterMultiset(users, (u: User) => !u.isStaff);
    Filter(users, (u: User) => !u.isStaff)
  }

  /** The profile-edit forms and the columns each exposes. */
  datatype ProfileForm = UserEditForm | UserManagerEditForm

  function FormFields(f: ProfileForm): seq<string>
  {
    match f
    case UserEditForm => ["email", "first_name", "last_name", "avatar", "phone_number", "area"]
    case UserManagerEditForm => ["is_active"]
  }

  /** `get_form_class`: a user who may block accounts gets the form exposing
      only the active flag; everyone else gets the self-edit form. */
  function ProfileFormFor(requester: User): (r: ProfileForm)
    ensures r == UserManagerEditForm <==> HasPerm(requester, CanBlockingUser)
    ensures HasPerm(requester, CanBlockingUser) ==> FormFields(r) == ["is_active"]
    ensures "is_active" in FormFields(r) <==> HasPerm(requester, CanBlockingUser)
  {
    if HasPerm(requester, CanBlockingUser) then UserManagerEditForm else UserEditForm
  }
}

=== FILE: validation.dfy ===
/** The field rules shared by the application's forms: the e-mail check
    delegated to an external validator, and the digits-only phone check. */
module Validation {
  import opened Common

  /** The external e-mail validator: None when it accepts the address, or
      the message of the `EmailNotValidError` it raises. */
  type EmailValidator = string -> Option<string>

  /** `clean_email`: the address unchanged when the validator accepts it,
      otherwise a validation error carrying the validator's message. */
  function CleanEmail(email: string, validate: EmailValidator): (r: Result<string>)
    ensures r.Success? <==> validate(email) == None
    ensures r.Success? ==> r.value == email
    ensures r.Failure? ==> r.error == validate(email).value
  {
    match validate(email)
    case None => Success(email)
    case Some(message) => Failure(message)
  }

  predicate IsAsciiDigit(c: char)
  {
    '0' <= c <= '9'
  }

  /** `str.isdigit` over ASCII: true for a non-empty string of digits. */
  function IsDigitString(s: string): (r: bool)
    ensures r <==> |s| > 0 && forall i :: 0 <= i < |s| ==> IsAsciiDigit(s[i])
  {
    if |s| == 0 then false
    else if |s| == 1 then IsAsciiDigit(s[0])
    else IsAsciiDigit(s[0]) && IsDigitString(s[1..])
  }

  const PhoneDigitsError := "Номер телефона должен содержать только цифры."

  /** `clean_phone_number`: a missing or empty number passes, a number with
      any non-digit character is refused, and a passing number is returned
      as given. */
  function CleanPhoneNumber(phone: Option<string>): (r: Result<Option<string>>)
    ensures r.Success? ==> r.value == phone
    ensures r.Failure? <==> phone.Some? && exists i :: 0 <= i < |phone.value| && !IsAsciiDigit(phone.value[i])
    ensures r.Failure? ==> r.error == PhoneDigitsError
  {
    match phone
    case None => Success(phone)
    case Some(p) =>
      if p != "" && !IsDigitString(p) then Failure(PhoneDigitsError) else Success(phone)
  }
}
